=== FILE: README.md ===
# Stock assistant core, modelled in Dafny

The application is a chat-based stock assistant. A browser chat box sends the user's message
and the local history to a chat endpoint. The endpoint checks the request and reads the
signed-in user from the `Authorization` header. It then lets a language model call tools, at
most five rounds of calls. One tool, `monitor_stock_price`, starts an in-memory price monitor.
The endpoint returns the reply, the grown history and the conversation id. The chat box
de-duplicates and sanitises the history it gets back, and decides whether the reply still
belongs to the conversation the message was sent from.

The monitor keeps, per conversation, a list of polling tasks:

- at most three of them run at once;
- each task fires at most once, records one hit and sends one mock email;
- each task ends by firing, by expiring after its lifetime, or by an explicit stop request.

The mock mail store is an append-only list. A conversation endpoint names new conversations and
lists the user's conversations. A global browser store holds the chart and the chat history.

The modules are:

- `Text`: the JavaScript string operations the code relies on: `trim`, `slice`, ASCII case
  mapping and `split`.
- `History`: chat entries.
- `Notify`: the mock mail store.
- `Monitor`: tasks and the registry.
- `Chatbox`: the chat box.
- `ChatRoute`: the chat endpoint.
- `Conversations`: the conversation endpoint.
- `Auth`: bearer tokens.
- `ChartStore`: the global browser store.
- `Wrappers`: `Option` and `Result`.

The model has two kinds of state.

- State the source changes in place is held in classes: the monitor registry and its tasks, the
  mail store, and the browser store.
- Everything else is a pure function with lemmas.

Timers are not modelled as concurrency. A poll tick, an expiry, a start and a stop are each one
atomic method call. The registry therefore satisfies a class invariant, `MonitorManager.Valid`:

- it holds exactly the running tasks, at most three per conversation;
- a task's timers are set exactly while it runs;
- every task has as many hits as mock emails were sent about it: one if it fired, none
  otherwise.

Every state-changing method keeps this invariant, and the lemmas about the registry follow from
it.

Clocks, quotes, generated ids and the oracles are passed in as parameters:

- the clock (`now`, in milliseconds);
- quotes from the quote service (`Option<real>`, with `None` for a failed fetch);
- generated ids;
- the model service's answers (the tool-call outcomes of each round, and the final text);
- the database's answers (ownership of a conversation, the id of a created conversation, the
  newest message of each listed conversation);
- the token verifier (`string -> Option<Claims>`).

## Model

| member | source | states |
|---|---|---|
| Text.Trim | app/api/chat/route.ts:395 | `trim` gives the part of the string between its leading and trailing whitespace: it starts and ends with non-whitespace, everything outside it is whitespace, and it is empty exactly when the string is blank |
| Text.TrimOfTrimmed | app/api/chat/route.ts:349 | a string that starts and ends with non-whitespace (such as `new session`) is its own trim |
| Text.TrimIdempotent | app/api/chat/route.ts:349 | trimming twice removes nothing more |
| Text.Take | app/api/chat/route.ts:522 | `slice(0, n)` is the prefix of length `min(n, length)` |
| Text.Upper | lib/monitor.ts:129 | upper-casing keeps the length and maps each character (ASCII letters shift by 32, others unchanged) |
| Text.UpperIsUpper | lib/monitor.ts:129 | an upper-cased ticker has no lower-case letter, and upper-casing it again changes nothing |
| Text.Lower | lib/auth.ts:32 | lower-casing keeps the length and maps each character |
| Text.Split | lib/auth.ts:31 | `split(' ')` gives at least one piece, no piece contains the separator, and joining the pieces with it gives back the string |
| History.FirstText | components/Chatbox.tsx:31 | `m.parts?.[0]?.text` is present only when the entry has a first part holding that text |
| History.SameMessage | components/Chatbox.tsx:31 | two entries are the same message when role and first text agree, as both de-duplication passes compare them |
| History.TextEntry | app/api/chat/route.ts:573-582 | a single-part entry whose first text is the given one |
| Notify.EmailStore.constructor | lib/notify.ts:15-20 | the store starts empty |
| Notify.EmailStore.SendEmailMock | lib/notify.ts:22-28 | exactly one message is appended with the recipient, subject, text and clock reading; earlier messages stay; the result is success |
| Notify.SliceStart | lib/notify.ts:32 | where `slice(start)` begins: a negative start counts from the end, and the start is clamped to the array |
| Notify.EmailStore.ListMockEmails | lib/notify.ts:30-33 | the listing is a suffix of the store: the newest `limit` messages for a positive limit, the whole store for 0, and all but the oldest `-limit` for a negative limit |
| Notify.ListingAfterSend | lib/notify.ts:22-33 | after a send, a listing ends with the new message, preceded by the newest earlier messages in order |
| Monitor.TestRule | lib/monitor.ts:85-99 | `testRule`: an above rule fires at or over its value, a below rule at or under it, a percent rule only with a positive baseline and a move of at least its value in percent |
| Monitor.PercentRuleBand | lib/monitor.ts:85-99 | with a positive baseline `b`, a percent rule fires exactly when the price is at least `b + b*v/100` or at most `b - b*v/100` |
| Monitor.NonPositivePercentFiresAtOnce | lib/monitor.ts:91-95 | a percent rule with a threshold of 0 or less fires on the first quote once a positive baseline exists |
| Monitor.ReasonForHit | lib/monitor.ts:77-83 | the reason reports the rule's kind and threshold; without a baseline the move is 0%; whenever the rule fired on the quote, the comparison the reason reports holds |
| Monitor.IntervalMs | lib/monitor.ts:117 | the polling period is whole seconds times 1000 and at least 5000 ms; the default is 30000 ms; a value under 5 s gives 5000 ms |
| Monitor.DurationMin | lib/monitor.ts:118 | the lifetime is whole minutes clamped to 1..30; the default is 30 |
| Monitor.ExpiryDelayMs | lib/monitor.ts:159-164 | the expiry timer fires between 1 and 30 minutes plus the 100 ms grace after the start |
| Monitor.TriggerSubject | lib/monitor.ts:150 | the trigger email's subject: the `[Monitoring Trigger]` prefix followed by the ticker |
| Monitor.TriggerText | lib/monitor.ts:151 | the trigger email's text: the session, the ticker and the reason |
| Monitor.Task.constructor | lib/monitor.ts:117-137 | a new task is running with its timers set, no hits and no last price; it carries the upper-cased ticker, the clamped period and lifetime, and a baseline only for a percent rule |
| Monitor.ToPublicTask | lib/monitor.ts:201-217 | the public view copies every field but the timer handles |
| Monitor.ViewsOf | lib/monitor.ts:222 | `list.map(toPublicTask)`: one view per task |
| Monitor.ViewsOfPointwise | lib/monitor.ts:201-222 | `list.map(toPublicTask)`: the view at each position is that of the task at the same position |
| Monitor.ViewsOfStep | lib/monitor.ts:229 | viewing one more task of a list appends its view |
| Monitor.RunningCount | lib/monitor.ts:112 | the running count is at most the list length, and equals it exactly when every task runs |
| Monitor.MatchCount | lib/monitor.ts:177-186 | the number of tasks a stop request names is at most the list length; with no id given it is the whole list |
| Monitor.MatchCountStep | lib/monitor.ts:178-186 | one more task adds one to the count exactly when the request names it |
| Monitor.Remaining | lib/monitor.ts:192 | `list.filter(t => t.id !== id)`: never longer than the list |
| Monitor.RemainingMembers | lib/monitor.ts:192 | the filter keeps exactly the tasks whose id differs |
| Monitor.RemainingCount | lib/monitor.ts:192 | kept plus counted tasks make up the whole list, and a second stop with the same id would count none of the kept tasks |
| Monitor.RemainingInOrder | lib/monitor.ts:192 | the filter keeps the surviving tasks in their order |
| Monitor.Without | lib/monitor.ts:189 | deleting a key leaves exactly the other keys and keeps them distinct; the order is pinned by the two lemmas below |
| Monitor.WithoutSingle | lib/monitor.ts:189 | on a one-key order, deleting removes that key when it is the deleted one and keeps it otherwise |
| Monitor.WithoutAppend | lib/monitor.ts:189 | deleting from a concatenation deletes from each part, so the remaining keys keep their insertion order |
| Monitor.RegistryAfterStop | lib/monitor.ts:187-193 | a stop request changes only its own conversation's entry: a named stop leaves the key present, an unnamed one deletes it |
| Monitor.OrderAfterStop | lib/monitor.ts:187-193 | a named stop only ever appends to the key order, and only its own key; an unnamed one removes exactly that key and is `Without`, so the other keys keep their order |
| Monitor.RegistryAfterStopMembers | lib/monitor.ts:187-193 | after a stop request, a task is registered exactly when it was registered before and the request did not name it in that conversation |
| Monitor.ShapeAfterStart | lib/monitor.ts:169 | filing a new task under a conversation with room keeps the registry's shape: keys match the key order, each key appears once, tasks sit under their own conversation, and no list exceeds three |
| Monitor.FiledAfterStop | lib/monitor.ts:187-193 | after a stop request every registered task is still a created one, filed under its own conversation |
| Monitor.KeysListedAfterStop | lib/monitor.ts:187-193 | after a stop request the registry's keys are still exactly the listed keys, each listed once |
| Monitor.CappedAfterStop | lib/monitor.ts:187-193 | a stop request never lengthens a conversation's list, so none exceeds three |
| Monitor.ShapeAfterStop | lib/monitor.ts:187-193 | a stop request keeps the registry's shape |
| Monitor.StopTask | lib/monitor.ts:179-183 | the task's timers are cleared and a running task becomes stopped, any other status is kept |
| Monitor.StopEach | lib/monitor.ts:177-186 | every named task has its timers cleared and, if it was running, becomes stopped, otherwise keeps its status; unnamed tasks are untouched; hits and last prices never change; the count is the number of named tasks |
| Monitor.MonitorManager.constructor | lib/monitor.ts:45-50 | the registry starts empty and valid |
| Monitor.MonitorManager.StopMonitor | lib/monitor.ts:174-195 | the count is the number of named tasks; each named task is disarmed and stopped unless it already fired or expired; a named stop keeps the filtered list (creating the key if absent), an unnamed or empty-id stop deletes the key; the invariant holds afterwards |
| Monitor.MonitorManager.Unregister | lib/monitor.ts:187-193 | a named stop keeps the conversation's unnamed tasks (creating the key if absent), an unnamed one deletes the key; the stopped tasks leave the registry and the invariant holds again |
| Monitor.MonitorManager.StopAllForConversation | lib/monitor.ts:197-199 | every task of the conversation is stopped and the key is deleted |
| Monitor.MonitorManager.StartMonitor | lib/monitor.ts:101-172 | fails with the capacity error, changing nothing, exactly when three tasks run; otherwise appends a new running task with the clamped settings at the end of the conversation's list, adding the key at the end of the order if new; its expiry timer fires the 100 ms grace after its advertised expiry |
| Monitor.MonitorManager.Register | lib/monitor.ts:169 | `tasksMap.set(c, [...list, task])` keeps the invariant |
| Monitor.MonitorManager.Poll | lib/monitor.ts:139-156 | a tick of a task that is not running, or with a failed fetch, changes nothing; otherwise the price is recorded; if the rule holds the task becomes triggered with one hit, one email with the trigger subject and text goes out, and the task is unregistered; the invariant holds; the conversation's other tasks keep their price and hits, and only when the task fires are those with the same id stopped and disarmed, as its stop request names them |
| Monitor.MonitorManager.Trigger | lib/monitor.ts:144-155 | the firing branch: triggered, one hit, one email, then the task's own stop, which leaves it triggered and unregistered; the conversation's other tasks keep their price and hits, and those with the same id are stopped and disarmed, as its stop request names them |
| Monitor.MonitorManager.Fire | lib/monitor.ts:145-152 | status, hit, email and notification record are updated together, so the task is consistent while its stop is still pending |
| Monitor.MonitorManager.Expire | lib/monitor.ts:159-164 | a running task becomes expired, otherwise keeps its status; the task is then disarmed and unregistered; the conversation's other tasks keep their price and hits, and those with the same id are stopped and disarmed, as its stop request names them |
| Monitor.MonitorManager.GetTasks | lib/monitor.ts:219-223 | `getTasks`: the views of the conversation's registered list, in order (a missing key reads as an empty list) |
| Monitor.MonitorManager.ListedTasksAreRunning | lib/monitor.ts:219-223 | `getTasks` lists at most three tasks, all running, with no hits, all of the asked conversation |
| Monitor.MonitorManager.GetAllTasks | lib/monitor.ts:225-232 | the result is every list's views in key-insertion order; every listed task is running with no hits, and every running task is listed |
| Monitor.MonitorManager.CollectViews | lib/monitor.ts:225-232 | the two loops concatenate the views of every key's list, keys in insertion order |
| Monitor.MonitorManager.ListedUnderRunning | lib/monitor.ts:225-232 | every task filed under the listed keys is a created, running task without hits, of one of those conversations |
| Monitor.MonitorManager.ListedUnderComplete | lib/monitor.ts:225-232 | every running task of a listed conversation is filed under the listed keys |
| Monitor.MonitorManager.ListedUnderStep | lib/monitor.ts:228-229 | walking one more key appends that key's list |
| Monitor.MonitorManager.AtMostThreeRunning | lib/monitor.ts:110-115 | no conversation ever has more than three running tasks |
| Monitor.MonitorManager.AtMostOneNotification | lib/monitor.ts:144-155 | a task has at most one hit and at most one email, and has an email exactly when it is triggered |
| Monitor.ForgetStopped | lib/monitor.ts:192 | after its own stop request a task is no longer in its conversation's list |
| Chatbox.Deduped | components/Chatbox.tsx:27-35 | `dedupeAdjacent` as a function: never longer than its input |
| Chatbox.DedupedShape | components/Chatbox.tsx:27-35 | no two neighbours of the result are the same message, the first entry is kept, and the last kept entry is the same message as the last given one |
| Chatbox.DedupedIsRunHeads | components/Chatbox.tsx:27-35 | the result is the first entry of every run of consecutive same messages |
| Chatbox.DedupedIsSubsequence | components/Chatbox.tsx:27-35 | the result is the input with entries deleted, order kept |
| Chatbox.DedupedKeepsClean | components/Chatbox.tsx:27-35 | de-duplication keeps entries well formed |
| Chatbox.DedupedFixesNoDuplicates | components/Chatbox.tsx:27-35 | a history without adjacent repeats passes through unchanged |
| Chatbox.DedupedIdempotent | components/Chatbox.tsx:27-35 | de-duplicating twice changes nothing more |
| Chatbox.DedupedStep | components/Chatbox.tsx:29-33 | one more entry is kept unless it is the same message as the last kept one |
| Chatbox.DedupeAdjacent | components/Chatbox.tsx:27-35 | the loop computes `Deduped` |
| Chatbox.TailPairsDeduped | components/Chatbox.tsx:38-57 | `dedupeTailPairs` as a function: the result is a prefix shorter by an even count, at least two long when the input is, and its last pair does not repeat the pair before it |
| Chatbox.RemovedEntryRepeats | components/Chatbox.tsx:38-57 | any single entry the loop removes is the same message as the entry two places before it |
| Chatbox.TailPairsRemovesOnlyRepeats | components/Chatbox.tsx:38-57 | every removed entry is the same message as the entry two places before it |
| Chatbox.DedupeTailPairs | components/Chatbox.tsx:38-57 | the loop computes `TailPairsDeduped` |
| Chatbox.TailPairsExample | components/Chatbox.tsx:38-57 | `[u, m, u, m]` with distinct messages reduces to `[u, m]` |
| Chatbox.PrefixKeepsNoDuplicates | components/Chatbox.tsx:65 | trimming pairs off a history without adjacent repeats keeps it so |
| Chatbox.Kept | components/Chatbox.tsx:60-63 | the two filters: a user or model entry with a string first text, and for a model entry a text that is not blank |
| Chatbox.Filtered | components/Chatbox.tsx:60-64 | the two filters and the map keep well-formed single-text entries only, never more than there were |
| Chatbox.FilteredSingle | components/Chatbox.tsx:60-64 | a single entry is kept, reduced to a single part holding its first text, exactly when it passes both filters |
| Chatbox.FilteredAppend | components/Chatbox.tsx:60-64 | the filters work entry by entry: filtering a concatenation filters each part (with FilteredSingle this determines the result, order included) |
| Chatbox.FilteredMembers | components/Chatbox.tsx:60-64 | every entry passing the filters survives with its first text, and every surviving entry comes from such an entry |
| Chatbox.FilterKeepsEmptyUserEntry | components/Chatbox.tsx:62-63 | an empty user message is kept |
| Chatbox.FilteredFixesClean | components/Chatbox.tsx:60-64 | well-formed entries pass the filters unchanged |
| Chatbox.SanitizeHistory | components/Chatbox.tsx:59-66 | the sanitised history has no adjacent repeats, only well-formed user or non-blank model entries, is a subsequence of the filtered input, and keeps the first filtered entry (so it is empty only when nothing passes the filters) |
| Chatbox.SanitizeIdempotent | components/Chatbox.tsx:59-66 | sanitising a sanitised history changes nothing |
| Chatbox.WillSend | components/Chatbox.tsx:79 | a message is sent exactly when the input is not blank and no request is in flight |
| Chatbox.AdoptReply | components/Chatbox.tsx:116-124 | a reply replaces the local history unless both the conversation the message was sent from (the prop the handler captured) and the reply name a conversation and they differ |
| Chatbox.HistoryAfterSend | components/Chatbox.tsx:78-135 | a guarded send changes nothing; a failed request appends the user's message and the error message; a reply for another conversation leaves the user's message appended; an adopted reply (no id on either side, or the same id) replaces the history by the sanitised returned history, or, without a history array, puts back the history from before the send, dropping the user's message |
| Chatbox.InitialHistory | components/Chatbox.tsx:69-76 | an empty initial history shows the welcome message; otherwise the shown history is the sanitised one, so it has no adjacent repeats and is drawn in order from the filtered entries |
| ChatRoute.HistoryOf | app/api/chat/route.ts:426 | an absent history reads as empty |
| ChatRoute.ValidateRequest | app/api/chat/route.ts:394-405 | a request is accepted exactly when the message is a non-blank string of at most 5000 characters and the history is absent or an array; each failure names the first failed check's error |
| ChatRoute.TruthyNumber | app/api/chat/route.ts:357-358 | `x ? Number(x) : undefined`: a zero or absent number becomes absent |
| ChatRoute.RuleOf | app/api/chat/route.ts:360-371 | the three threshold types map to the three rule kinds with the given value; any other type gives no rule |
| ChatRoute.ParseMonitorArgs | app/api/chat/route.ts:354-363 | the arguments are accepted exactly when the trimmed ticker is non-empty, the trimmed type is one of the three kinds and the threshold is finite; the rule has that kind and value; a zero or absent duration or interval becomes absent |
| ChatRoute.ZeroArgumentsGetDefaults | app/api/chat/route.ts:357-358 | a zero duration and interval get the defaults of 30 minutes and 30 seconds, not the minimums |
| ChatRoute.FallbackTitle | app/api/chat/route.ts:520-536 | a created conversation's title is 1 to 60 characters: the start of the trimmed message, or `new session` for a blank message |
| ChatRoute.ToolTitle | app/api/chat/route.ts:349 | the monitoring tool's title: the trimmed candidate (or `new session`), at most 60 characters, `new session` when that is empty |
| ChatRoute.ToolTitleIsFallbackTitle | app/api/chat/route.ts:349 | the monitoring tool names a conversation exactly as the endpoint does |
| ChatRoute.HistoryForModel | app/api/chat/route.ts:426-433 | the model's history drops one leading model entry and only that |
| ChatRoute.ReturnedHistory | app/api/chat/route.ts:569-589 | the returned history is the received one, then the user's message, then the reply |
| ChatRoute.ReturnedHistoryForModel | app/api/chat/route.ts:426-433 | what the model sees of a returned history is what it saw before plus the new exchange |
| ChatRoute.GreetingIsNotSentToModel | app/chat/page.tsx:148-151 | the greeting the chat page gives the chat box never reaches the model, neither alone nor at the head of a history grown by chat rounds |
| ChatRoute.Flatten | app/api/chat/route.ts:477-516 | the calls of all rounds run, round by round |
| ChatRoute.FirstSuccess | app/api/chat/route.ts:499-504 | the call recorded as `functionCallResult` |
| ChatRoute.FirstSuccessIsEarliest | app/api/chat/route.ts:499-504 | the recorded call is the earliest successful one, and there is none exactly when no call succeeded |
| ChatRoute.Adopted | app/api/chat/route.ts:490-497 | the request's conversation id after the calls |
| ChatRoute.AdoptedKeepsGivenConversation | app/api/chat/route.ts:492-497 | a conversation id the request has is never replaced; an adopted one is one a successful monitoring call reported |
| ChatRoute.AdoptedIsFirstMonitorCall | app/api/chat/route.ts:490-497 | for a request without a conversation, the adopted id is that of the first successful monitoring call reporting one; without such a call the id is unchanged |
| ChatRoute.LeadingRounds | app/api/chat/route.ts:481 | the number of leading answers that ask for calls: each of them asks, and the next one does not |
| ChatRoute.RoundsRun | app/api/chat/route.ts:479-481 | the loop runs at most five rounds |
| ChatRoute.LoopStep | app/api/chat/route.ts:490-504 | one call becomes the first success if there was none, and its conversation is adopted under the handler's condition |
| ChatRoute.RunCalls | app/api/chat/route.ts:487-512 | the calls of one round extend the first success and the adopted conversation |
| ChatRoute.FlattenStep | app/api/chat/route.ts:479-486 | the calls of one more round come after those of all earlier rounds |
| ChatRoute.RunToolLoop | app/api/chat/route.ts:477-516 | the loop stops at five rounds or at the first answer without calls; the recorded call and the conversation are those of all calls made |
| ChatRoute.RoundsRunIsLoopCount | app/api/chat/route.ts:481 | the loop's count is determined by the answers alone |
| ChatRoute.FinalText | app/api/chat/route.ts:538-555 | a non-blank model text is the reply; otherwise the monitoring summary when the first success was a monitoring call, the tool notice when calls ran, and the empty text otherwise |
| ChatRoute.Post | app/api/chat/route.ts:407-598 | a rejected request gets the validation error; no user gets unauthorized; otherwise the reply carries the loop's count and first success, the final text, the grown history, and either the owned, adopted or given conversation or a new one titled from the message |
| Conversations.TitleSource | app/api/conversations/route.ts:51 | the first truthy one of title, message and `new session` |
| Conversations.ConversationTitle | app/api/conversations/route.ts:47-52 | the title is the first 60 characters of the trimmed source; a whitespace-only title gives the empty title |
| Conversations.TitleFromMessageMatchesChat | app/api/conversations/route.ts:51-52 | created from a non-blank message, a conversation gets the chat endpoint's title; a blank message gives the empty title here but `new session` there |
| Conversations.Summarize | app/api/conversations/route.ts:24-30 | a summary copies the conversation's fields and previews exactly the role and content of the newest message, if any |
| Conversations.ListSummaries | app/api/conversations/route.ts:13-32 | at most 50 conversations are listed, in the given order, each with its summary |
| Auth.BearerToken | lib/auth.ts:31-32 | a token is non-empty and contains no space |
| Auth.UserFromHeader | lib/auth.ts:30-43 | no header or an empty one gives no user; otherwise there is a user exactly when a bearer token exists and verifies, and the user is exactly the payload's id, name and email |
| Auth.BearerTokenOfWellFormedHeader | lib/auth.ts:31-32 | `<scheme> <token>` and `<scheme> <token> <rest>`, with a scheme that lower-cases to `bearer`, yield the token |
| Auth.BearerTokenShape | lib/auth.ts:31-32 | a token is found only in that form: it follows the first space after a `bearer` scheme and runs to the next space or the end |
| Auth.DoubleSpaceGivesNoToken | lib/auth.ts:31-32 | two spaces after the scheme give no token |
| Auth.BasicSchemeGivesNoToken | lib/auth.ts:32 | a `Basic` scheme gives no token |
| ChartStore.InitialHistory | store/chartStore.ts:34-36 | the store starts with the single welcome message from the model |
| ChartStore.WelcomeIsNotSentToModel | store/chartStore.ts:34-36 | the store's welcome history would not reach the model either, alone or at the head of a grown history (the page sends its own greeting instead) |
| ChartStore.AppStore.constructor | store/chartStore.ts:30-36 | no ticker, no chart points, the welcome history |
| ChartStore.AppStore.SetChartData | store/chartStore.ts:39-42 | ticker and points are replaced; the history is untouched |
| ChartStore.AppStore.SetHistory | store/chartStore.ts:44 | the history is replaced; ticker and points are untouched |

## Left out

- Timers and asynchrony: the polling interval and expiry timeout are not scheduled. A poll, an expiry, a start or a stop is one atomic step.
- Interleavings at `await` points are therefore not modelled:
  - a stop arriving while a poll waits for its quote;
  - two starts for one conversation racing on the list read before the baseline fetch (lib/monitor.ts:111, 123, 169). This could let a fourth task start. Because both `set` a list read before the `await`, the later start also drops the earlier task from the registry: that task keeps running, and its own `stopMonitor` can never find it to clear its timers;
  - the order in which `Promise.all` callbacks finish (the model takes the calls of a round in list order).
- Monitor.MonitorManager.StopMonitor: follows the code, which removes the stopped task from the registry. The comment at lib/monitor.ts:191 and the test at __tests__/unit/lib/monitor.test.ts:57-58 expect it to still be listed.
- The quote service (`fetchPrice`) becomes the `quote` parameter. `None` stands for a failed fetch or a missing price.
- `genId` becomes the `id` parameter. Its randomness is not modelled, and the model does not assume ids are unique.
- The clock (`new Date()`) becomes the `now` parameter. Dates are milliseconds.
- Monitor.ReasonForHit: the reason text's number formatting (`${price}`, `toFixed(2)`) becomes the `format` parameter of Poll. The model states the facts the text reports, not its characters.
- ChatRoute.FinalText: the monitoring summary and its locale date formatting are the `monitorSummary` parameter.
- IEEE doubles: prices, thresholds and durations are exact reals. NaN and infinities are left out: a non-finite threshold is the `None` case, and a NaN duration or interval is not represented.
- `toUpperCase` and `toLowerCase` are modelled on ASCII letters only. Characters are code points, not UTF-16 code units, so the 5000-character and 60-character limits count code points.
- Null or non-object history entries and non-string titles are not modelled.
- The header fallbacks at lib/auth.ts:14-28 are left out; the header is an input.
- The JWT check is the `verify` oracle.
- The database is not modelled. Ownership and the ids of created conversations are parameters, the newest-message lookup is a function, and persistence failures are not represented.
- The language model is not modelled. Its answers are the `rounds` and `modelText` parameters. An answer without calls is an empty round, so an empty array of calls counts as no calls.
- The other tools (quotes, news, history and prediction) are only outcomes in `rounds`. Only the title of the conversation the monitoring tool creates is covered, by `ToolTitleIsFallbackTitle`. `StartMonitor` models `startMonitor` itself, but the route's call into it, which passes the parsed arguments together with the authenticated user's id and email, is not modelled: no member composes `ParseMonitorArgs`, the user and `StartMonitor`.
- The monitoring tool's conversation creation is left out; a call's reported conversation id is a free parameter. Two behaviours of the source are therefore not stated:
  - The tool creates the conversation (app/api/chat/route.ts:346-352) before checking its arguments (360-362). A failed call from a request without a conversation can leave an empty conversation behind. `Adopted` never takes that conversation, so the endpoint creates a second one (route.ts:520-524).
  - Every call of a round is given the conversation id the round started with (route.ts:488-490). Two monitoring calls in one round of such a request therefore create two conversations, and the second task runs under a conversation the reply never names.
- HTTP plumbing is left out: status codes, JSON parsing errors (500) and the `SyntaxError` answer.
- React rendering and `onApiResponse`/`onConversationCreated` callbacks are left out, as is the chart page.
- Chatbox.HistoryAfterSend: the history after the send only. The intermediate state, with the user's message shown while the request is in flight, is not stated.
- The chat box's welcome text lacks the apostrophe that the store's welcome text has (components/Chatbox.tsx:19 and store/chartStore.ts:35). The model keeps both texts as written.
- Monitor.ToPublicTask: the view is a value snapshot. In the source it shares the task's `hits` array and `Date` objects (lib/monitor.ts:201-217), so a hit recorded later shows up in a view taken earlier; the model does not capture that sharing.
- `getTasks` is the function `GetTasks`. Its properties are stated by `ListedTasksAreRunning`.
- The chat box compares the reply with the conversation id its handler captured when the message was sent. The page mounts the chat box without a `key` (app/chat/page.tsx:361-363), so if the user switches conversation while a request is in flight, the reply is still adopted and overwrites the history now on screen. The model takes that captured id as an input; the page and the switch are not modelled.
- The mail store's `console.log` line is not modelled. `listMockEmails` limits are integers: a fractional or NaN limit, which `slice` truncates or reads as 0, is not represented.

=== FILE: auth.dfy ===
/** Reading the signed-in user from a request's `Authorization: Bearer <token>` header. Token
    verification (signature, expiry) is an oracle: `None` stands for a verifier that throws. */
module Auth {
  import opened Wrappers
  import opened Text

  datatype AuthUser = AuthUser(id: string, name: string, email: string)

  /** A decoded token payload: the user's fields plus the issue and expiry times. */
  datatype Claims = Claims(id: string, name: string, email: string, iat: int, exp: int)

  /** The token of a header: it is split on single spaces, the first field is the scheme and the
      second the token; later fields are ignored. */
  function BearerToken(header: string): (t: Option<string>)
    ensures t.Some? ==> t.value != [] && ' ' !in t.value
  {
    var fields := Split(header, ' ');
    if |fields| >= 2 && fields[1] != [] && Lower(fields[0]) == "bearer" then Some(fields[1]) else None
  }

  /** `getUserFromRequest`: no header (or an empty one), a header without a non-empty token, or
      a scheme other than `bearer` gives no user; so does a token the verifier rejects. Otherwise
      the user is exactly the payload's id, name and email. */
  function UserFromHeader(header: Option<string>, verify: string -> Option<Claims>): (u: Option<AuthUser>)
    ensures header.None? || header == Some("") ==> u.None?
    ensures u.Some? <==> header.Some? && BearerToken(header.value).Some? && verify(BearerToken(header.value).value).Some?
    ensures u.Some? ==> var c := verify(BearerToken(header.value).value).value;
                        u.value == AuthUser(c.id, c.name, c.email)
  {
    if header.None? || header.value == "" then None
    else
      match BearerToken(header.value)
      case None => None
      case Some(token) =>
        match verify(token)
        case None => None
        case Some(c) => Some(AuthUser(c.id, c.name, c.email))
  }

  /** The first space of `s + " " + rest` is the one after `s` when `s` has none. */
  lemma IndexOfAfterWord(s: string, rest: string)
    requires ' ' !in s
    ensures IndexOf(s + [' '] + rest, ' ') == |s|
  {
    var x := s + [' '] + rest;
    assert x[|s|] == ' ';
  }

  /** Splitting a word followed by a space gives that word, then the split of the rest. */
  lemma SplitAfterWord(s: string, rest: string)
    requires ' ' !in s
    ensures Split(s + [' '] + rest, ' ') == [s] + Split(rest, ' ')
  {
    var x := s + [' '] + rest;
    IndexOfAfterWord(s, rest);
    assert x[..|s|] == s && x[|s| + 1..] == rest;
  }

  /** A header `<scheme> <token>` or `<scheme> <token> <anything>`, with a scheme that lowercases
      to `bearer` and a non-empty token without spaces, yields that token. */
  lemma BearerTokenOfWellFormedHeader(scheme: string, token: string, rest: Option<string>)
    requires ' ' !in scheme && Lower(scheme) == "bearer"
    requires token != [] && ' ' !in token
    ensures rest.None? ==> BearerToken(scheme + [' '] + token) == Some(token)
    ensures rest.Some? ==> BearerToken(scheme + [' '] + token + [' '] + rest.value) == Some(token)
  {
    if rest.None? {
      SplitAfterWord(scheme, token);
      assert Split(token, ' ') == [token];
    } else {
      var tail := token + [' '] + rest.value;
      assert scheme + [' '] + token + [' '] + rest.value == scheme + [' '] + tail;
      SplitAfterWord(scheme, tail);
      SplitAfterWord(token, rest.value);
    }
  }

  /** The header yields a token only in that form: the scheme before the first space lowercases
      to `bearer`, and the token follows that space and runs to the next space or the end. */
  lemma BearerTokenShape(header: string)
    requires BearerToken(header).Some?
    ensures var t := BearerToken(header).value;
      exists k :: 0 <= k < |header| && header[k] == ' ' && Lower(header[..k]) == "bearer" &&
                  k + 1 + |t| <= |header| && header[k + 1..k + 1 + |t|] == t &&
                  (k + 1 + |t| == |header| || header[k + 1 + |t|] == ' ')
  {
    var fields := Split(header, ' ');
    var t := fields[1];
    var k := |fields[0]|;
    assert header == fields[0] + [' '] + Join(fields[1..], ' ');
    if |fields[1..]| == 1 {
      assert header == fields[0] + [' '] + t;
      assert header[k + 1..k + 1 + |t|] == t;
    } else {
      assert Join(fields[1..], ' ') == t + [' '] + Join(fields[2..], ' ');
      assert header == fields[0] + [' '] + t + [' '] + Join(fields[2..], ' ');
      assert header[k + 1..k + 1 + |t|] == t;
      assert header[k + 1 + |t|] == ' ';
    }
    assert header[..k] == fields[0];
    assert header[k] == ' ';
  }

  /** Two spaces after the scheme give an empty token, hence no user. */
  lemma DoubleSpaceGivesNoToken(token: string)
    ensures BearerToken("Bearer  " + token) == None
  {
    var tail := [' '] + token;
    assert "Bearer  " + token == "Bearer" + [' '] + tail;
    SplitAfterWord("Bearer", tail);
    assert tail == "" + [' '] + token;
    SplitAfterWord("", token);
    assert Split("Bearer  " + token, ' ')[1] == "";
  }

  /** Another scheme gives no user. */
  lemma BasicSchemeGivesNoToken(token: string)
    ensures BearerToken("Basic " + token) == None
  {
    SplitAfterWord("Basic", token);
    assert "Basic " + token == "Basic" + [' '] + token;
    assert Lower("Basic")[0] == 'b' && Lower("Basic")[1] == 'a';
  }
}

=== FILE: chart_store.dfy ===
/** The browser's global application state: the charted ticker and its points, and the chat
    history shown by the chat box. */
module ChartStore {
  import opened Wrappers
  import opened History
  import ChatRoute

  const WelcomeText: string := "Hello! I'm your financial assistant. May I ask how I can assist you?"

  /** One point of a chart: a date, and a price and a predicted price when known. */
  datatype ChartPoint = ChartPoint(date: string, price: Option<real>, predictedPrice: Option<real>)

  /** The history the application starts with: the assistant's single welcome message. */
  function InitialHistory(): (h: seq<Entry>)
    ensures |h| == 1 && h[0].role == ModelRole && FirstText(h[0]) == Some(WelcomeText)
  {
    [TextEntry(ModelRole, WelcomeText)]
  }

  /** The store's welcome history would not reach the model either: the chat endpoint drops it,
      and a history grown from it by chat rounds reaches the model without it. The chat page
      sends its own greeting, covered by `ChatRoute.GreetingIsNotSentToModel`. */
  lemma WelcomeIsNotSentToModel(message: string, reply: string)
    ensures ChatRoute.HistoryForModel(InitialHistory()) == []
    ensures ChatRoute.HistoryForModel(ChatRoute.ReturnedHistory(InitialHistory(), message, reply))
         == [TextEntry(UserRole, message), TextEntry(ModelRole, reply)]
  {
    ChatRoute.GreetingIsNotSentToModel(WelcomeText, message, reply);
  }

  /** The store. Each action replaces the fields it names and leaves the others alone. */
  class AppStore {
    var ticker: Option<string>
    var chartData: seq<ChartPoint>
    var history: seq<Entry>

    constructor ()
      ensures ticker == None && chartData == [] && history == InitialHistory()
    {
      ticker := None;
      chartData := [];
      history := InitialHistory();
    }

    /** `setChartData`: the new ticker and points replace the old ones wholesale. */
    method SetChartData(ticker: string, data: seq<ChartPoint>)
      modifies this
      ensures this.ticker == Some(ticker) && chartData == data
      ensures history == old(history)
    {
      this.ticker := Some(ticker);
      chartData := data;
    }

    /** `setHistory`: the history is replaced; the chart is untouched. */
    method SetHistory(history: seq<Entry>)
      modifies this
      ensures this.history == history
      ensures ticker == old(ticker) && chartData == old(chartData)
    {
      this.history := history;
    }
  }
}

=== FILE: chat_route.dfy ===
/** The chat endpoint: request validation, the monitoring tool's argument check, the history the
    model sees, the bounded tool-call loop and the history handed back to the browser. The model
    service, the database and the other tools are oracles: their answers come in as parameters. */
module ChatRoute {
  import opened Wrappers
  import opened Text
  import opened History
  import Monitor

  const MaxMessageLength: nat := 5000
  const MaxFunctionCalls: nat := 5
  const TitleLength: nat := 60
  const DefaultTitle: string := "new session"
  const MonitorTool: string := "monitor_stock_price"
  const InvalidMessage: string := "The message content is invalid."
  const MessageTooLong: string := "The message is too long"
  const InvalidHistory: string := "The format of the historical record is invalid"
  const InvalidMonitorArgs: string :=
    "Invalid argument: ticker, thresholdType(above/below/percentChange), thresholdValue is mandatory"
  const ToolDoneText: string := "The tool call has been completed and the operation has been finished."

  // ---------------------------------------------------------------------------------------------
  // Request validation

  /** The `message` field: a string, or anything else (missing, a number, an object, ...). */
  datatype MessageField = TextMessage(text: string) | NotText

  /** The `history` field: any falsy value (missing, null, ...), an array, or a truthy non-array. */
  datatype HistoryField = Falsy | ArrayOf(entries: seq<Entry>) | NotArray

  datatype RequestBody = RequestBody(message: MessageField, history: HistoryField, conversationId: Option<string>)

  datatype Validation = Accepted | Rejected(error: string)

  /** `validateRequest` on a parsed body (`None` for a null body). The checks run in order and
      the first failing one names the error; a message of exactly 5000 characters passes. */
  function ValidateRequest(body: Option<RequestBody>): (v: Validation)
    ensures v.Accepted? <==>
      && body.Some? && body.value.message.TextMessage?
      && !Blank(body.value.message.text) && |body.value.message.text| <= MaxMessageLength
      && !body.value.history.NotArray?
    ensures (body.None? || body.value.message.NotText? || Blank(body.value.message.text)) ==>
      v == Rejected(InvalidMessage)
    ensures (body.Some? && body.value.message.TextMessage? && !Blank(body.value.message.text) &&
             |body.value.message.text| > MaxMessageLength) ==>
      v == Rejected(MessageTooLong)
    ensures (body.Some? && body.value.message.TextMessage? && !Blank(body.value.message.text) &&
             |body.value.message.text| <= MaxMessageLength && body.value.history.NotArray?) ==>
      v == Rejected(InvalidHistory)
  {
    if body.None? || body.value.message.NotText? || !Truthy(Trim(body.value.message.text)) then
      Rejected(InvalidMessage)
    else if |body.value.message.text| > MaxMessageLength then
      Rejected(MessageTooLong)
    else if body.value.history.NotArray? then
      Rejected(InvalidHistory)
    else
      Accepted
  }

  /** `history || []`. */
  function HistoryOf(h: HistoryField): seq<Entry> {
    if h.ArrayOf? then h.entries else []
  }

  // ---------------------------------------------------------------------------------------------
  // The monitoring tool's arguments

  /** The tool call's arguments as they arrive: `thresholdValue` is `None` when `Number(...)` of
      it is not finite; a duration or interval is `None` when absent. */
  datatype MonitorArgs = MonitorArgs(
    ticker: string, thresholdType: string, thresholdValue: Option<real>,
    durationMinutes: Option<real>, intervalSeconds: Option<real>)

  /** What the tool hands to `startMonitor`. */
  datatype MonitorRequest = MonitorRequest(
    ticker: string, rule: Monitor.ThresholdRule,
    durationMinutes: Option<real>, intervalSeconds: Option<real>)

  /** A falsy number (absent or zero) becomes absent. */
  function TruthyNumber(x: Option<real>): Option<real> {
    if x.Some? && x.value != 0.0 then x else None
  }

  predicate IsThresholdType(kind: string) {
    kind == "above" || kind == "below" || kind == "percentChange"
  }

  function RuleOf(thresholdType: string, value: real): Option<Monitor.ThresholdRule> {
    if thresholdType == "above" then Some(Monitor.Above(value))
    else if thresholdType == "below" then Some(Monitor.Below(value))
    else if thresholdType == "percentChange" then Some(Monitor.PercentChange(value))
    else None
  }

  /** The argument check of the monitoring tool: accepted exactly when the trimmed ticker is not
      empty, the trimmed threshold type is one of the three kinds and the threshold is finite. */
  function ParseMonitorArgs(args: MonitorArgs): (r: Result<MonitorRequest, string>)
    ensures r.Success? <==>
      && Trim(args.ticker) != []
      && IsThresholdType(Trim(args.thresholdType))
      && args.thresholdValue.Some?
    ensures r.Failure? ==> r.error == InvalidMonitorArgs
    ensures r.Success? ==>
      && r.value.ticker == Trim(args.ticker)
      && r.value.rule.value == args.thresholdValue.value
      && (r.value.rule.Above? <==> Trim(args.thresholdType) == "above")
      && (r.value.rule.Below? <==> Trim(args.thresholdType) == "below")
    ensures r.Success? ==>
      && (r.value.durationMinutes.None? <==> args.durationMinutes.None? || args.durationMinutes == Some(0.0))
      && (r.value.intervalSeconds.None? <==> args.intervalSeconds.None? || args.intervalSeconds == Some(0.0))
      && (r.value.durationMinutes.Some? ==> r.value.durationMinutes == args.durationMinutes)
      && (r.value.intervalSeconds.Some? ==> r.value.intervalSeconds == args.intervalSeconds)
  {
    var t := Trim(args.ticker);
    var kind := Trim(args.thresholdType);
    if t == [] || args.thresholdValue.None? then Failure(InvalidMonitorArgs)
    else
      match RuleOf(kind, args.thresholdValue.value)
      case None => Failure(InvalidMonitorArgs)
      case Some(rule) =>
        Success(MonitorRequest(t, rule, TruthyNumber(args.durationMinutes), TruthyNumber(args.intervalSeconds)))
  }

  /** A zero duration or interval is falsy and so gets the monitor's defaults (30 minutes, 30
      seconds), not the clamped minimum. */
  lemma ZeroArgumentsGetDefaults(args: MonitorArgs)
    requires ParseMonitorArgs(args).Success?
    requires args.durationMinutes == Some(0.0) && args.intervalSeconds == Some(0.0)
    ensures Monitor.DurationMin(ParseMonitorArgs(args).value.durationMinutes) == 30
    ensures Monitor.IntervalMs(ParseMonitorArgs(args).value.intervalSeconds) == 30000
  {
  }

  // ---------------------------------------------------------------------------------------------
  // Titles

  /** The title of a conversation created after the tool loop (no id, or one the user does not
      own): `message.trim().slice(0, 60) || 'new session'`. At most 60 characters, the start of
      the trimmed message, or the default for a blank message. */
  function FallbackTitle(s: string): (t: string)
    ensures 1 <= |t| <= TitleLength
    ensures Blank(s) ==> t == DefaultTitle
    ensures !Blank(s) ==> |t| == (if |Trim(s)| <= TitleLength then |Trim(s)| else TitleLength)
                          && t == Trim(s)[..|t|]
  {
    var x := Take(Trim(s), TitleLength);
    if x == [] then DefaultTitle else x
  }

  /** The title of a conversation the monitoring tool creates:
      `(titleCandidate || 'new session').trim().slice(0, 60) || 'new session'`. */
  function ToolTitle(titleCandidate: string): string {
    FallbackTitle(if Truthy(titleCandidate) then titleCandidate else DefaultTitle)
  }

  /** Both creation paths name a conversation the same way: the extra `|| 'new session'` on the
      candidate changes nothing. */
  lemma ToolTitleIsFallbackTitle(message: string)
    ensures ToolTitle(message) == FallbackTitle(message)
  {
    if !Truthy(message) {
      assert Blank(message);
      var d := DefaultTitle;
      assert !IsWhitespace(d[0]) && !IsWhitespace(d[|d| - 1]);
      TrimOfTrimmed(d);
    }
  }

  // ---------------------------------------------------------------------------------------------
  // History

  /** The history sent to the model: one leading `model` entry (the browser's welcome message) is
      dropped, and only one. */
  function HistoryForModel(history: seq<Entry>): (r: seq<Entry>)
    ensures |history| - 1 <= |r| <= |history| && r == history[|history| - |r|..]
    ensures |r| < |history| <==> |history| > 0 && history[0].role == ModelRole
  {
    if |history| > 0 && history[0].role == ModelRole then history[1..] else history
  }

  /** The history returned to the browser: the history as received (welcome message included),
      then the user's message, then the reply. */
  function ReturnedHistory(original: seq<Entry>, message: string, reply: string): (r: seq<Entry>)
    ensures |r| == |original| + 2 && r[..|original|] == original
    ensures r[|original|].role == UserRole && FirstText(r[|original|]) == Some(message)
    ensures r[|original| + 1].role == ModelRole && FirstText(r[|original| + 1]) == Some(reply)
  {
    original + [TextEntry(UserRole, message), TextEntry(ModelRole, reply)]
  }

  /** Round after round the two agree: what the model sees of a returned history is what it saw
      of the previous one plus the new exchange. */
  lemma ReturnedHistoryForModel(original: seq<Entry>, message: string, reply: string)
    ensures HistoryForModel(ReturnedHistory(original, message, reply))
         == HistoryForModel(original) + [TextEntry(UserRole, message), TextEntry(ModelRole, reply)]
  {
    var exchange := [TextEntry(UserRole, message), TextEntry(ModelRole, reply)];
    if |original| > 0 && original[0].role == ModelRole {
      assert (original + exchange)[1..] == original[1..] + exchange;
    }
  }
  /** A history that is only the assistant's greeting, as the chat page hands the chat box when
      no conversation is loaded, never reaches the model: alone it is dropped, and a history grown
      from it by chat rounds reaches the model without it. */
  lemma GreetingIsNotSentToModel(greeting: string, message: string, reply: string)
    ensures HistoryForModel([TextEntry(ModelRole, greeting)]) == []
    ensures HistoryForModel(ReturnedHistory([TextEntry(ModelRole, greeting)], message, reply))
         == [TextEntry(UserRole, message), TextEntry(ModelRole, reply)]
  {
    ReturnedHistoryForModel([TextEntry(ModelRole, greeting)], message, reply);
  }


  // ---------------------------------------------------------------------------------------------
  // The tool-call loop

  /** One executed tool call: its name, whether its result reported success, its data, and the
      conversation id in that data (set by the monitoring tool). */
  datatype CallOutcome = CallOutcome(name: string, success: bool, data: string, conversationId: Option<string>)

  /** `functionCallResult`. */
  datatype CallRecord = CallRecord(name: string, data: string)

  /** The calls of the given rounds, in order. */
  function Flatten(rounds: seq<seq<CallOutcome>>): seq<CallOutcome> {
    if rounds == [] then [] else Flatten(rounds[..|rounds| - 1]) + rounds[|rounds| - 1]
  }

  /** One more answer's calls come after all earlier ones. */
  lemma FlattenStep(rounds: seq<seq<CallOutcome>>, k: nat)
    requires k < |rounds|
    ensures Flatten(rounds[..k + 1]) == Flatten(rounds[..k]) + rounds[k]
  {
    assert rounds[..k + 1][..k] == rounds[..k];
  }

  /** The first successful call, if any. */
  function FirstSuccess(calls: seq<CallOutcome>): Option<CallRecord> {
    if calls == [] then None
    else
      var f := FirstSuccess(calls[..|calls| - 1]);
      var last := calls[|calls| - 1];
      if f.Some? then f
      else if last.success then Some(CallRecord(last.name, last.data))
      else None
  }

  /** The recorded call is the earliest successful one, and there is none exactly when no
      call succeeded. */
  lemma {:induction false} FirstSuccessIsEarliest(calls: seq<CallOutcome>)
    ensures var r := FirstSuccess(calls);
      (r.None? <==> forall i :: 0 <= i < |calls| ==> !calls[i].success) &&
      (r.Some? ==> exists i :: 0 <= i < |calls| && calls[i].success
                                && r.value == CallRecord(calls[i].name, calls[i].data)
                                && forall j :: 0 <= j < i ==> !calls[j].success)
  {
    if calls != [] {
      var init := calls[..|calls| - 1];
      FirstSuccessIsEarliest(init);
      assert forall j :: 0 <= j < |init| ==> calls[j] == init[j];
    }
  }

  /** The request's conversation id after the calls: a successful monitoring call that created
      a conversation is adopted, but only while the request has none. */
  function Adopted(conversationId: Option<string>, calls: seq<CallOutcome>): Option<string> {
    if calls == [] then conversationId
    else
      var c := Adopted(conversationId, calls[..|calls| - 1]);
      var call := calls[|calls| - 1];
      if call.name == MonitorTool && call.success && !IdTruthy(c) && IdTruthy(call.conversationId)
      then call.conversationId else c
  }

  /** A conversation id the request already has is never replaced, and one adopted is one that a
      successful monitoring call reported. */
  lemma {:induction false} AdoptedKeepsGivenConversation(conversationId: Option<string>, calls: seq<CallOutcome>)
    ensures IdTruthy(conversationId) ==> Adopted(conversationId, calls) == conversationId
    ensures Adopted(conversationId, calls) == conversationId ||
            exists i :: 0 <= i < |calls| && calls[i].name == MonitorTool && calls[i].success
                        && IdTruthy(calls[i].conversationId) && Adopted(conversationId, calls) == calls[i].conversationId
  {
    if calls != [] {
      var init := calls[..|calls| - 1];
      AdoptedKeepsGivenConversation(conversationId, init);
      if Adopted(conversationId, calls) != Adopted(conversationId, init) {
        assert calls[|calls| - 1].name == MonitorTool;
      } else if Adopted(conversationId, init) != conversationId {
        var i :| 0 <= i < |init| && init[i].name == MonitorTool && init[i].success
                 && IdTruthy(init[i].conversationId) && Adopted(conversationId, init) == init[i].conversationId;
        assert calls[i] == init[i];
      }
    }
  }

  /** A call whose conversation the handler adopts while the request has none. */
  predicate AdoptsConversation(call: CallOutcome) {
    call.name == MonitorTool && call.success && IdTruthy(call.conversationId)
  }

  /** For a request without a conversation, the adopted id is the one the first successful
      monitoring call that reported a conversation created; without such a call nothing changes. */
  lemma {:induction false} AdoptedIsFirstMonitorCall(conversationId: Option<string>, calls: seq<CallOutcome>)
    requires !IdTruthy(conversationId)
    ensures (forall i :: 0 <= i < |calls| ==> !AdoptsConversation(calls[i])) ==>
              Adopted(conversationId, calls) == conversationId
    ensures forall i :: 0 <= i < |calls| && AdoptsConversation(calls[i]) &&
                        (forall j :: 0 <= j < i ==> !AdoptsConversation(calls[j])) ==>
              Adopted(conversationId, calls) == calls[i].conversationId
  {
    if calls != [] {
      var init := calls[..|calls| - 1];
      AdoptedIsFirstMonitorCall(conversationId, init);
      assert forall j :: 0 <= j < |init| ==> calls[j] == init[j];
      forall i | 0 <= i < |calls| && AdoptsConversation(calls[i]) &&
                 (forall j :: 0 <= j < i ==> !AdoptsConversation(calls[j]))
        ensures Adopted(conversationId, calls) == calls[i].conversationId
      {
        if i < |init| {
          assert Adopted(conversationId, init) == init[i].conversationId;
        } else {
          assert forall j :: 0 <= j < |init| ==> !AdoptsConversation(init[j]);
        }
      }
    }
  }

  /** How many of the model's answers in a row ask for calls. */
  function LeadingRounds(rounds: seq<seq<CallOutcome>>): (n: nat)
    ensures n <= |rounds|
    ensures forall k :: 0 <= k < n ==> rounds[k] != []
    ensures n == |rounds| || rounds[n] == []
  {
    if |rounds| == 0 || rounds[0] == [] then 0 else 1 + LeadingRounds(rounds[1..])
  }

  /** How many rounds the loop runs: while the model keeps asking for calls, at most five. */
  function RoundsRun(rounds: seq<seq<CallOutcome>>): (n: nat)
    ensures n <= MaxFunctionCalls
  {
    var n := LeadingRounds(rounds);
    if n <= MaxFunctionCalls then n else MaxFunctionCalls
  }

  /** The leading run is at least as long as any prefix of answers that all ask for calls. */
  lemma {:induction false} LeadingRoundsAtLeast(rounds: seq<seq<CallOutcome>>, n: nat)
    requires n <= |rounds| && forall k :: 0 <= k < n ==> rounds[k] != []
    ensures LeadingRounds(rounds) >= n
  {
    if n > 0 {
      LeadingRoundsAtLeast(rounds[1..], n - 1);
    }
  }

  /** One more call: it becomes the first success if there was none, and its conversation is
      adopted under the same condition as in the handler. */
  lemma LoopStep(calls: seq<CallOutcome>, call: CallOutcome, conversationId: Option<string>)
    ensures FirstSuccess(calls + [call]) ==
              if FirstSuccess(calls).None? && call.success then Some(CallRecord(call.name, call.data))
              else FirstSuccess(calls)
    ensures var c := Adopted(conversationId, calls);
      Adopted(conversationId, calls + [call]) ==
        if call.name == MonitorTool && call.success && !IdTruthy(c) && IdTruthy(call.conversationId)
        then call.conversationId else c
  {
    assert (calls + [call])[..|calls|] == calls;
  }

  /** The `for` loop over one answer's calls: keeps the first successful call and adopts the
      first conversation a monitoring call created, continuing what `done` already produced. */
  method RunCalls(calls: seq<CallOutcome>, first0: Option<CallRecord>, conv0: Option<string>,
                  ghost done: seq<CallOutcome>, ghost conversationId: Option<string>)
    returns (first: Option<CallRecord>, conv: Option<string>)
    requires first0 == FirstSuccess(done) && conv0 == Adopted(conversationId, done)
    ensures first == FirstSuccess(done + calls) && conv == Adopted(conversationId, done + calls)
  {
    first, conv := first0, conv0;
    assert done + calls[..0] == done;
    for j := 0 to |calls|
      invariant first == FirstSuccess(done + calls[..j])
      invariant conv == Adopted(conversationId, done + calls[..j])
    {
      var call := calls[j];
      assert done + calls[..j + 1] == (done + calls[..j]) + [call];
      LoopStep(done + calls[..j], call, conversationId);
      if call.name == MonitorTool && call.success {
        if !IdTruthy(conv) && IdTruthy(call.conversationId) {
          conv := call.conversationId;
        }
      }
      if call.success && first.None? {
        first := Some(CallRecord(call.name, call.data));
      }
    }
    assert calls[..|calls|] == calls;
  }

  /** The `while` loop of the chat handler. `rounds[k]` is what the calls of the model's
      `k`-th answer produced (empty: the answer asked for none); the loop runs while the model
      asks for calls and fewer than five rounds ran, records the first successful call and adopts
      a conversation the monitoring tool created. */
  method RunToolLoop(rounds: seq<seq<CallOutcome>>, conversationId: Option<string>)
    returns (count: nat, first: Option<CallRecord>, conv: Option<string>)
    ensures count <= MaxFunctionCalls && count <= |rounds|
    ensures forall k :: 0 <= k < count ==> rounds[k] != []
    ensures count < MaxFunctionCalls ==> count == |rounds| || rounds[count] == []
    ensures first == FirstSuccess(Flatten(rounds[..count]))
    ensures conv == Adopted(conversationId, Flatten(rounds[..count]))
  {
    count := 0;
    first := None;
    conv := conversationId;
    while count < |rounds| && rounds[count] != [] && count < MaxFunctionCalls
      invariant count <= MaxFunctionCalls && count <= |rounds|
      invariant forall k :: 0 <= k < count ==> rounds[k] != []
      invariant first == FirstSuccess(Flatten(rounds[..count]))
      invariant conv == Adopted(conversationId, Flatten(rounds[..count]))
      decreases MaxFunctionCalls - count
    {
      var calls := rounds[count];
      first, conv := RunCalls(calls, first, conv, Flatten(rounds[..count]), conversationId);
      FlattenStep(rounds, count);
      count := count + 1;
    }
  }

  // ---------------------------------------------------------------------------------------------
  // The whole request

  /** The reply text: the model's text unless it is blank; then a summary of a monitoring call
      (its date formatting is a parameter), the tool notice, or nothing. */
  function FinalText(modelText: string, first: Option<CallRecord>, count: nat, monitorSummary: string): (t: string)
    ensures !Blank(modelText) ==> t == modelText
    ensures Blank(modelText) && first.Some? && first.value.name == MonitorTool ==> t == monitorSummary
    ensures Blank(modelText) && !(first.Some? && first.value.name == MonitorTool) ==>
              t == if count > 0 then ToolDoneText else ""
  {
    if Truthy(modelText) && Truthy(Trim(modelText)) then modelText
    else if first.Some? && first.value.name == MonitorTool then monitorSummary
    else if count > 0 then ToolDoneText
    else ""
  }

  datatype ChatResponse =
    | BadRequest(error: string)
    | Unauthorized
    | Reply(reply: string, history: seq<Entry>, functionCallCount: nat,
            functionCallResult: Option<CallRecord>, conversationId: string, createdTitle: Option<string>)

  /** The chat handler. `signedIn` is the outcome of reading the bearer token; `rounds` are the
      model's tool rounds; `modelText` its final text; `owned` whether the conversation id the
      request ends up with belongs to the user; `newId` the id the database gives a conversation
      it creates. A created conversation's title is reported in `createdTitle`. */
  method Post(body: Option<RequestBody>, signedIn: bool, rounds: seq<seq<CallOutcome>>,
              modelText: string, monitorSummary: string, owned: bool, newId: string)
    returns (r: ChatResponse)
    ensures ValidateRequest(body).Rejected? ==> r == BadRequest(ValidateRequest(body).error)
    ensures ValidateRequest(body).Accepted? && !signedIn ==> r == Unauthorized
    ensures ValidateRequest(body).Accepted? && signedIn ==>
      && r.Reply?
      && r.functionCallCount == RoundsRun(rounds)
      && r.functionCallResult == FirstSuccess(Flatten(rounds[..r.functionCallCount]))
      && r.reply == FinalText(modelText, r.functionCallResult, r.functionCallCount, monitorSummary)
      && r.history == ReturnedHistory(HistoryOf(body.value.history), body.value.message.text, r.reply)
      && |r.history| == |HistoryOf(body.value.history)| + 2
      && var conv := Adopted(body.value.conversationId, Flatten(rounds[..r.functionCallCount]));
         (if IdTruthy(conv) && owned
          then r.conversationId == conv.value && r.createdTitle.None?
          else r.conversationId == newId && r.createdTitle == Some(FallbackTitle(body.value.message.text)))
  {
    var v := ValidateRequest(body);
    if v.Rejected? {
      return BadRequest(v.error);
    }
    if !signedIn {
      return Unauthorized;
    }
    var message := body.value.message.text;
    var count, first, conv := RunToolLoop(rounds, body.value.conversationId);
    RoundsRunIsLoopCount(rounds, count);
    var finalText := FinalText(modelText, first, count, monitorSummary);
    var id: string;
    var title: Option<string>;
    if IdTruthy(conv) && owned {
      id := conv.value;
      title := None;
    } else {
      id := newId;
      title := Some(FallbackTitle(message));
    }
    var history := ReturnedHistory(HistoryOf(body.value.history), message, finalText);
    r := Reply(finalText, history, count, first, id, title);
  }

  /** The loop's count is determined by the rounds: it is `RoundsRun`. */
  lemma RoundsRunIsLoopCount(rounds: seq<seq<CallOutcome>>, count: nat)
    requires count <= MaxFunctionCalls && count <= |rounds|
    requires forall k :: 0 <= k < count ==> rounds[k] != []
    requires count < MaxFunctionCalls ==> count == |rounds| || rounds[count] == []
    ensures count == RoundsRun(rounds)
  {
    LeadingRoundsAtLeast(rounds, count);
  }
}

=== FILE: chatbox.dfy ===
/** The chat box's handling of local history: the two de-duplication passes, the sanitiser
    applied to history coming back from the server, and the send handler's guard and
    history-adoption decision. */
module Chatbox {
  import opened Wrappers
  import opened Text
  import opened History

  const WelcomeText: string := "Hello! Im your financial assistant. May I ask how I can assist you?"
  const ErrorText: string := "Sorry, there was a little problem. Please try again later."

  predicate NoAdjacentDuplicates(s: seq<Entry>) {
    forall i :: 0 < i < |s| ==> !SameMessage(s[i - 1], s[i])
  }

  // ---------------------------------------------------------------------------
  // Subsequences

  /** `a` can be obtained from `b` by deleting entries (order kept). */
  predicate IsSubsequence<T(==)>(a: seq<T>, b: seq<T>)
    decreases |b|
  {
    if a == [] then true
    else if b == [] then false
    else if a[|a| - 1] == b[|b| - 1] then IsSubsequence(a[..|a| - 1], b[..|b| - 1])
    else IsSubsequence(a, b[..|b| - 1])
  }

  lemma {:induction false} SubsequenceDropLast<T>(a: seq<T>, b: seq<T>)
    requires a != [] && IsSubsequence(a, b)
    ensures IsSubsequence(a[..|a| - 1], b)
    decreases |b|, 1
  {
    var a', b' := a[..|a| - 1], b[..|b| - 1];
    assert b' + [b[|b| - 1]] == b;
    if a[|a| - 1] == b[|b| - 1] {
      SubsequenceExtend(a', b', b[|b| - 1]);
    } else {
      SubsequenceDropLast(a, b');
      SubsequenceExtend(a', b', b[|b| - 1]);
    }
  }

  lemma {:induction false} SubsequenceExtend<T>(a: seq<T>, b: seq<T>, x: T)
    requires IsSubsequence(a, b)
    ensures IsSubsequence(a, b + [x])
    decreases |b|, 2
  {
    assert (b + [x])[..|b|] == b;
    if a != [] && a[|a| - 1] == x {
      SubsequenceDropLast(a, b);
    }
  }

  lemma {:induction false} SubsequenceRefl<T>(a: seq<T>)
    ensures IsSubsequence(a, a)
    decreases |a|
  {
    if a != [] { SubsequenceRefl(a[..|a| - 1]); }
  }

  lemma {:induction false} SubsequencePrefix<T>(a: seq<T>, b: seq<T>, k: nat)
    requires k <= |a| && IsSubsequence(a, b)
    ensures IsSubsequence(a[..k], b)
    decreases |a| - k
  {
    if k == |a| {
      assert a[..k] == a;
    } else {
      SubsequencePrefix(a, b, k + 1);
      SubsequenceDropLast(a[..k + 1], b);
      assert a[..k + 1][..k] == a[..k];
    }
  }

  // ---------------------------------------------------------------------------
  // dedupeAdjacent

  /** `dedupeAdjacent` as a function: an entry is dropped exactly when it is the same message
      as the last entry kept so far. */
  function Deduped(s: seq<Entry>): (r: seq<Entry>)
    ensures |r| <= |s|
    decreases |s|
  {
    if s == [] then []
    else
      var kept := Deduped(s[..|s| - 1]);
      if kept != [] && SameMessage(kept[|kept| - 1], s[|s| - 1]) then kept
      else kept + [s[|s| - 1]]
  }

  /** No two neighbours of the result are the same message; the first entry always survives,
      and the last one kept is the same message as the last one given. */
  lemma {:induction false} DedupedShape(s: seq<Entry>)
    ensures var r := Deduped(s);
      NoAdjacentDuplicates(r) && (s != [] ==> r != [] && r[0] == s[0] && SameMessage(r[|r| - 1], s[|s| - 1]))
    decreases |s|
  {
    if s != [] {
      var p := s[..|s| - 1];
      DedupedShape(p);
      var kept := Deduped(p);
      if kept == [] || !SameMessage(kept[|kept| - 1], s[|s| - 1]) {
        var r := kept + [s[|s| - 1]];
        assert Deduped(s) == r;
        forall i | 0 < i < |r|
          ensures !SameMessage(r[i - 1], r[i])
        {
          if i < |kept| {
            assert r[i - 1] == kept[i - 1] && r[i] == kept[i];
          }
        }
      }
    }
  }

  /** An independent description of the same result: the first entry of every run of
      consecutive same messages. */
  function RunHeads(s: seq<Entry>): seq<Entry>
    decreases |s|
  {
    if s == [] then []
    else
      var n := |s|;
      RunHeads(s[..n - 1]) + (if n == 1 || !SameMessage(s[n - 2], s[n - 1]) then [s[n - 1]] else [])
  }

  lemma {:induction false} DedupedIsRunHeads(s: seq<Entry>)
    ensures Deduped(s) == RunHeads(s)
    decreases |s|
  {
    if s != [] {
      var p := s[..|s| - 1];
      DedupedIsRunHeads(p);
      if |s| >= 2 {
        assert p[|p| - 1] == s[|s| - 2];
      }
    }
  }

  lemma {:induction false} DedupedIsSubsequence(s: seq<Entry>)
    ensures IsSubsequence(Deduped(s), s)
    decreases |s|
  {
    if s != [] {
      var p := s[..|s| - 1];
      var x := s[|s| - 1];
      var kept := Deduped(p);
      DedupedIsSubsequence(p);
      assert p + [x] == s;
      if kept != [] && SameMessage(kept[|kept| - 1], x) {
        assert Deduped(s) == kept;
        SubsequenceExtend(kept, p, x);
      } else {
        var r := kept + [x];
        assert Deduped(s) == r;
        assert r[..|r| - 1] == kept && r[|r| - 1] == x;
        assert IsSubsequence(r[..|r| - 1], s[..|s| - 1]);
      }
    }
  }

  lemma {:induction false} DedupedKeepsClean(s: seq<Entry>)
    requires forall i :: 0 <= i < |s| ==> Clean(s[i])
    ensures forall i :: 0 <= i < |Deduped(s)| ==> Clean(Deduped(s)[i])
    decreases |s|
  {
    if s != [] {
      DedupedKeepsClean(s[..|s| - 1]);
    }
  }

  /** A history without adjacent duplicates passes through unchanged. */
  lemma {:induction false} DedupedFixesNoDuplicates(s: seq<Entry>)
    requires NoAdjacentDuplicates(s)
    ensures Deduped(s) == s
    decreases |s|
  {
    if s != [] {
      var p := s[..|s| - 1];
      assert NoAdjacentDuplicates(p) by {
        forall i | 0 < i < |p| ensures !SameMessage(p[i - 1], p[i]) {
          assert p[i - 1] == s[i - 1] && p[i] == s[i];
        }
      }
      DedupedFixesNoDuplicates(p);
      if |s| >= 2 {
        assert !SameMessage(s[|s| - 2], s[|s| - 1]);
      }
      assert p + [s[|s| - 1]] == s;
    }
  }

  lemma DedupedIdempotent(s: seq<Entry>)
    ensures Deduped(Deduped(s)) == Deduped(s)
  {
    DedupedShape(s);
    DedupedFixesNoDuplicates(Deduped(s));
  }

  /** One more entry: it is kept unless it repeats the last entry kept so far. */
  lemma DedupedStep(s: seq<Entry>, i: nat)
    requires i < |s|
    ensures var kept := Deduped(s[..i]);
      Deduped(s[..i + 1]) == if kept != [] && SameMessage(kept[|kept| - 1], s[i]) then kept else kept + [s[i]]
  {
    assert s[..i + 1][..i] == s[..i];
  }

  /** The loop of `dedupeAdjacent`. */
  method DedupeAdjacent(arr: seq<Entry>) returns (out: seq<Entry>)
    ensures out == Deduped(arr)
  {
    out := [];
    for i := 0 to |arr|
      invariant out == Deduped(arr[..i])
    {
      var m := arr[i];
      DedupedStep(arr, i);
      if out != [] && SameMessage(out[|out| - 1], m) {
        continue;
      }
      out := out + [m];
    }
    assert arr[..|arr|] == arr;
  }

  // ---------------------------------------------------------------------------
  // dedupeTailPairs

  /** The last two entries repeat the two before them. */
  predicate RepeatedTailPair(s: seq<Entry>) {
    |s| >= 4 && SameMessage(s[|s| - 4], s[|s| - 2]) && SameMessage(s[|s| - 3], s[|s| - 1])
  }

  /** `dedupeTailPairs` as a function: drop the final pair while it repeats the pair before it. */
  function TailPairsDeduped(s: seq<Entry>): (r: seq<Entry>)
    ensures |r| <= |s| && r == s[..|r|]
    ensures (|s| - |r|) % 2 == 0
    ensures !RepeatedTailPair(r)
    ensures |r| >= if |s| < 2 then |s| else 2
    decreases |s|
  {
    if RepeatedTailPair(s) then TailPairsDeduped(s[..|s| - 2]) else s
  }

  /** An entry `dedupeTailPairs` removes is the same message as the entry two places before it. */
  lemma {:induction false} RemovedEntryRepeats(s: seq<Entry>, k: int)
    requires |TailPairsDeduped(s)| <= k < |s|
    ensures k >= 2 && SameMessage(s[k], s[k - 2])
    decreases |s|
  {
    var n := |s|;
    assert RepeatedTailPair(s);
    if k < n - 2 {
      var s' := s[..n - 2];
      RemovedEntryRepeats(s', k);
      assert s[k] == s'[k] && s[k - 2] == s'[k - 2];
    } else if k == n - 2 {
      assert SameMessage(s[n - 4], s[n - 2]);
    } else {
      assert SameMessage(s[n - 3], s[n - 1]);
    }
  }

  /** Everything `dedupeTailPairs` removes repeats the entry two places before it, so the removed
      tail is copies of the pair left at the end. */
  lemma TailPairsRemovesOnlyRepeats(s: seq<Entry>)
    ensures var r := TailPairsDeduped(s);
      forall k {:trigger s[k]} :: |r| <= k < |s| ==> k >= 2 && SameMessage(s[k], s[k - 2])
  {
    forall k {:trigger s[k]} | |TailPairsDeduped(s)| <= k < |s| ensures k >= 2 && SameMessage(s[k], s[k - 2]) {
      RemovedEntryRepeats(s, k);
    }
  }

  /** The loop of `dedupeTailPairs`; each round removes exactly the final two entries. */
  method DedupeTailPairs(arr: seq<Entry>) returns (out: seq<Entry>)
    ensures out == TailPairsDeduped(arr)
  {
    out := arr;
    while |out| >= 4
      invariant TailPairsDeduped(out) == TailPairsDeduped(arr)
      decreases |out|
    {
      var n := |out|;
      var a, b, c, d := out[n - 4], out[n - 3], out[n - 2], out[n - 1];
      var samePair := a.role == c.role && b.role == d.role &&
                      FirstText(a) == FirstText(c) && FirstText(b) == FirstText(d);
      if samePair {
        out := out[..n - 2];
      } else {
        break;
      }
    }
  }

  lemma TailPairsExample(u: Entry, m: Entry)
    requires !SameMessage(u, m)
    ensures TailPairsDeduped([u, m, u, m]) == [u, m]
  {
    assert [u, m, u, m][..2] == [u, m];
  }

  lemma {:induction false} PrefixKeepsNoDuplicates(s: seq<Entry>, k: nat)
    requires k <= |s| && NoAdjacentDuplicates(s)
    ensures NoAdjacentDuplicates(s[..k])
  {
    forall i | 0 < i < k ensures !SameMessage(s[..k][i - 1], s[..k][i]) {
      assert s[..k][i - 1] == s[i - 1] && s[..k][i] == s[i];
    }
  }

  // ---------------------------------------------------------------------------
  // sanitizeHistory

  /** What the two filters of `sanitizeHistory` keep: a user or model entry whose first text is
      a string, and, for a model entry, a text that is not blank once trimmed. */
  predicate Kept(e: Entry) {
    && (e.role == UserRole || e.role == ModelRole)
    && FirstText(e).Some?
    && (e.role == UserRole || |Trim(FirstText(e).value)| > 0)
  }

  /** The shape every sanitised entry has. */
  predicate Clean(e: Entry) {
    && |e.parts| == 1
    && FirstText(e).Some?
    && (e.role == UserRole || (e.role == ModelRole && !Blank(FirstText(e).value)))
  }

  /** The filter-and-map stage: kept entries, each reduced to its first text. */
  function Filtered(s: seq<Entry>): (r: seq<Entry>)
    ensures |r| <= |s|
    ensures forall i :: 0 <= i < |r| ==> Clean(r[i])
    decreases |s|
  {
    if s == [] then []
    else
      var e := s[|s| - 1];
      Filtered(s[..|s| - 1]) + (if Kept(e) then [TextEntry(e.role, FirstText(e).value)] else [])
  }

  /** A single entry is kept, reduced to its first text, exactly when it passes both filters. */
  lemma FilteredSingle(e: Entry)
    ensures Filtered([e]) == if Kept(e) then [TextEntry(e.role, FirstText(e).value)] else []
  {
    assert [e][..0] == [];
  }

  /** The filter works entry by entry: filtering a concatenation filters each part. With
      `FilteredSingle` this determines `Filtered` on every input, order included. */
  lemma {:induction false} FilteredAppend(a: seq<Entry>, b: seq<Entry>)
    ensures Filtered(a + b) == Filtered(a) + Filtered(b)
    decreases |b|
  {
    if b == [] {
      assert a + b == a;
    } else {
      var init := b[..|b| - 1];
      var x := b[|b| - 1];
      FilteredAppend(a, init);
      assert a + b == (a + init) + [x];
      assert (a + b)[..|a + b| - 1] == a + init;
      var tail := if Kept(x) then [TextEntry(x.role, FirstText(x).value)] else [];
      calc {
        Filtered(a + b);
        Filtered(a + init) + tail;
        (Filtered(a) + Filtered(init)) + tail;
        Filtered(a) + (Filtered(init) + tail);
        Filtered(a) + Filtered(b);
      }
    }
  }

  /** Every entry that passes the filters survives, reduced to its first text, and nothing
      else appears in the result. */
  lemma {:induction false} FilteredMembers(s: seq<Entry>)
    ensures forall i :: 0 <= i < |s| && Kept(s[i]) ==> TextEntry(s[i].role, FirstText(s[i]).value) in Filtered(s)
    ensures forall e :: e in Filtered(s) ==>
              exists i :: 0 <= i < |s| && Kept(s[i]) && e == TextEntry(s[i].role, FirstText(s[i]).value)
    decreases |s|
  {
    if s != [] {
      var init := s[..|s| - 1];
      FilteredMembers(init);
      assert forall i :: 0 <= i < |init| ==> s[i] == init[i];
    }
  }

  /** An empty user message is kept (only model entries must have visible text). */
  lemma FilterKeepsEmptyUserEntry()
    ensures Filtered([Entry(UserRole, [Part(Some(""))])]) == [TextEntry(UserRole, "")]
  {
    FilteredSingle(Entry(UserRole, [Part(Some(""))]));
  }

  lemma {:induction false} FilteredFixesClean(s: seq<Entry>)
    requires forall i :: 0 <= i < |s| ==> Clean(s[i])
    ensures Filtered(s) == s
    decreases |s|
  {
    if s != [] {
      var e := s[|s| - 1];
      FilteredFixesClean(s[..|s| - 1]);
      assert e.parts == [Part(Some(FirstText(e).value))];
      assert s[..|s| - 1] + [e] == s;
    }
  }

  /** `sanitizeHistory`. */
  function SanitizeHistory(s: seq<Entry>): (r: seq<Entry>)
    ensures NoAdjacentDuplicates(r)
    ensures forall i :: 0 <= i < |r| ==> Clean(r[i])
    ensures IsSubsequence(r, Filtered(s))
    ensures Filtered(s) != [] ==> r != [] && r[0] == Filtered(s)[0]
  {
    var f := Filtered(s);
    var d := Deduped(f);
    var r := TailPairsDeduped(d);
    DedupedShape(f);
    PrefixKeepsNoDuplicates(d, |r|);
    DedupedIsSubsequence(f);
    SubsequencePrefix(d, f, |r|);
    DedupedKeepsClean(f);
    assert forall i :: 0 <= i < |r| ==> r[i] == d[i];
    r
  }

  lemma SanitizeIdempotent(s: seq<Entry>)
    ensures SanitizeHistory(SanitizeHistory(s)) == SanitizeHistory(s)
  {
    var r := SanitizeHistory(s);
    FilteredFixesClean(r);
    DedupedFixesNoDuplicates(r);
  }

  // ---------------------------------------------------------------------------
  // handleSendMessage

  /** The guard of `handleSendMessage`: nothing happens for a blank input or while a request is
      in flight. */
  predicate WillSend(input: string, isLoading: bool)
    ensures WillSend(input, isLoading) <==> !Blank(input) && !isLoading
  {
    !(|Trim(input)| == 0 || isLoading)
  }

  /** The decision whether a reply replaces the local history. `conversationId` is the prop the
      handler closed over when the message was sent; `replyId` is `data.conversationId`. */
  predicate AdoptReply(conversationId: Option<string>, replyId: Option<string>)
    ensures AdoptReply(conversationId, replyId) <==>
      !IdTruthy(conversationId) || !IdTruthy(replyId) || replyId == conversationId
  {
    var convAtSend := if IdTruthy(conversationId) then conversationId else None;
    var respConvId := if IdTruthy(replyId) then replyId else convAtSend;
    var stillOnSameConversation := (!IdTruthy(conversationId) && !IdTruthy(respConvId)) ||
                                   conversationId == respConvId;
    var createdByThisRequest := !IdTruthy(convAtSend) && IdTruthy(replyId);
    stillOnSameConversation || createdByThisRequest
  }

  /** What the server returned: its conversation id and its `history` when that is an array. */
  datatype ChatReply = ChatReply(conversationId: Option<string>, history: Option<seq<Entry>>)

  /** The local history once `handleSendMessage` has finished; `reply` is `None` when the request
      failed. */
  function HistoryAfterSend(history: seq<Entry>, input: string, isLoading: bool,
                            conversationId: Option<string>, reply: Option<ChatReply>): (r: seq<Entry>)
    ensures !WillSend(input, isLoading) ==> r == history
    ensures WillSend(input, isLoading) && reply.None? ==>
      r == history + [TextEntry(UserRole, input), TextEntry(ModelRole, ErrorText)]
    ensures (WillSend(input, isLoading) && reply.Some? &&
             IdTruthy(conversationId) && IdTruthy(reply.value.conversationId) &&
             reply.value.conversationId != conversationId) ==>
            r == history + [TextEntry(UserRole, input)]
    ensures (WillSend(input, isLoading) && reply.Some? &&
             (!IdTruthy(conversationId) || !IdTruthy(reply.value.conversationId) ||
              reply.value.conversationId == conversationId)) ==>
            r == if reply.value.history.Some? then SanitizeHistory(reply.value.history.value) else history
  {
    if !WillSend(input, isLoading) then history
    else
      var withUser := history + [TextEntry(UserRole, input)];
      match reply
      case None => withUser + [TextEntry(ModelRole, ErrorText)]
      case Some(data) =>
        var nextHistory := if data.history.Some? then SanitizeHistory(data.history.value) else history;
        if AdoptReply(conversationId, data.conversationId) then nextHistory else withUser
  }

  /** The history shown when the `initialHistory` prop changes. */
  function InitialHistory(initial: seq<Entry>): (r: seq<Entry>)
    ensures initial == [] ==> r == [TextEntry(ModelRole, WelcomeText)]
    ensures initial != [] ==> NoAdjacentDuplicates(r) && IsSubsequence(r, Filtered(initial))
    ensures initial != [] ==> r == SanitizeHistory(initial)
  {
    if |initial| > 0 then SanitizeHistory(initial) else [TextEntry(ModelRole, WelcomeText)]
  }
}

=== FILE: conversations.dfy ===
/** The conversation list endpoint: naming a new conversation, and the summaries it lists. */
module Conversations {
  import opened Wrappers
  import opened Text
  import ChatRoute

  const TitleLength: nat := 60
  const DefaultTitle: string := "new session"
  /** At most this many conversations are listed. */
  const ListLimit: nat := 50

  /** `rawTitle || fromMessage || 'new session'`: the first truthy source (an empty string is
      falsy, a whitespace-only one is not). */
  function TitleSource(title: Option<string>, fromMessage: Option<string>): (s: string)
    ensures title.Some? && Truthy(title.value) ==> s == title.value
    ensures !(title.Some? && Truthy(title.value)) && fromMessage.Some? && Truthy(fromMessage.value) ==> s == fromMessage.value
    ensures !(title.Some? && Truthy(title.value)) && !(fromMessage.Some? && Truthy(fromMessage.value)) ==> s == DefaultTitle
  {
    if title.Some? && Truthy(title.value) then title.value
    else if fromMessage.Some? && Truthy(fromMessage.value) then fromMessage.value
    else DefaultTitle
  }

  /** The title a new conversation is created with: the first 60 characters of the trimmed
      source. Unlike the chat endpoint, nothing replaces an empty result, so a whitespace-only
      title yields the empty title. */
  function ConversationTitle(title: Option<string>, fromMessage: Option<string>): (t: string)
    ensures |t| <= TitleLength
    ensures var src := Trim(TitleSource(title, fromMessage));
      |t| == (if |src| <= TitleLength then |src| else TitleLength) && t == src[..|t|]
    ensures title.Some? && Truthy(title.value) && Blank(title.value) ==> t == []
  {
    Take(Trim(TitleSource(title, fromMessage)), TitleLength)
  }

  /** Created from a message alone, a conversation gets the same title as one the chat endpoint
      creates, except for a blank message: the chat endpoint then falls back to the default. */
  lemma TitleFromMessageMatchesChat(fromMessage: string)
    requires Truthy(fromMessage)
    ensures !Blank(fromMessage) ==> ConversationTitle(None, Some(fromMessage)) == ChatRoute.FallbackTitle(fromMessage)
    ensures Blank(fromMessage) ==> ConversationTitle(None, Some(fromMessage)) == [] &&
                                   ChatRoute.FallbackTitle(fromMessage) == DefaultTitle
  {
    if !Blank(fromMessage) {
      var a := ConversationTitle(None, Some(fromMessage));
      var b := ChatRoute.FallbackTitle(fromMessage);
      assert |a| == |b|;
    }
  }

  /** A stored conversation and a stored message, as far as the listing reads them. */
  datatype Conversation = Conversation(id: string, title: string, createdAt: int, updatedAt: int)
  datatype StoredMessage = StoredMessage(role: string, content: string, createdAt: int)

  /** `lastMessage` of a summary: exactly a role and a content. */
  datatype Preview = Preview(role: string, content: string)

  datatype Summary = Summary(id: string, title: string, createdAt: int, updatedAt: int, lastMessage: Option<Preview>)

  /** The summary of one conversation, given its newest message (`None` when it has none). */
  function Summarize(c: Conversation, last: Option<StoredMessage>): (s: Summary)
    ensures s.id == c.id && s.title == c.title && s.createdAt == c.createdAt && s.updatedAt == c.updatedAt
    ensures s.lastMessage.None? <==> last.None?
    ensures last.Some? ==> s.lastMessage == Some(Preview(last.value.role, last.value.content))
  {
    Summary(c.id, c.title, c.createdAt, c.updatedAt,
            if last.Some? then Some(Preview(last.value.role, last.value.content)) else None)
  }

  /** The listing of GET: `conversations` are the user's conversations newest first, of which
      the first 50 are listed; `lastOf` gives each one's newest message. */
  function ListSummaries(conversations: seq<Conversation>, lastOf: string -> Option<StoredMessage>): (r: seq<Summary>)
    ensures |r| == if |conversations| <= ListLimit then |conversations| else ListLimit
    ensures forall i :: 0 <= i < |r| ==> r[i] == Summarize(conversations[i], lastOf(conversations[i].id))
  {
    var shown := if |conversations| <= ListLimit then conversations else conversations[..ListLimit];
    seq(|shown|, i requires 0 <= i < |shown| => Summarize(shown[i], lastOf(shown[i].id)))
  }
}

=== FILE: history.dfy ===
/** Chat history entries as the browser, the store and the chat endpoint exchange them
    (`ApiHistoryPart`): a role and a list of parts, each with an optional text. */
module History {
  import opened Wrappers

  const UserRole: string := "user"
  const ModelRole: string := "model"

  /** One part of an entry; `text` is `None` when the part's `text` is not a string. */
  datatype Part = Part(text: Option<string>)

  /** An entry as received; a missing `parts` array reads as no parts. */
  datatype Entry = Entry(role: string, parts: seq<Part>)

  /** `m.parts?.[0]?.text`. */
  function FirstText(e: Entry): (t: Option<string>)
    ensures t.Some? ==> |e.parts| > 0 && e.parts[0].text == t
  {
    if |e.parts| > 0 then e.parts[0].text else None
  }

  /** A well-formed single-part entry. */
  function TextEntry(role: string, text: string): (e: Entry)
    ensures e.role == role && FirstText(e) == Some(text) && |e.parts| == 1
  {
    Entry(role, [Part(Some(text))])
  }

  /** Two entries the chat box considers the same message: same role and same first text. */
  predicate SameMessage(a: Entry, b: Entry) {
    a.role == b.role && FirstText(a) == FirstText(b)
  }

  /** JavaScript truthiness of an optional conversation id. */
  predicate IdTruthy(id: Option<string>) {
    id.Some? && id.value != ""
  }
}

=== FILE: monitor.dfy ===
/** The in-memory price monitor: per-conversation lists of polling tasks, each of which fires
    at most once (one mock email), then stops; a conversation runs at most three tasks at once.
    Timers are not modelled as concurrency: a poll tick, an expiry and a stop are each one atomic
    step (a method call). Prices come in as parameters in place of the quote service. */
module Monitor {
  import opened Wrappers
  import opened Text
  import Notify

  /** The per-conversation cap on running tasks. */
  const MaxRunning: nat := 3
  const CapacityError: string := "This session has reached the limit of up to three monitoring tasks"
  const SubjectPrefix: string := "[Monitoring Trigger]"
  /** Added to the expiry delay so the timeout fires just after `expiresAt`. */
  const ExpiryGraceMs: nat := 100

  datatype ThresholdRule = Above(value: real) | Below(value: real) | PercentChange(value: real)

  datatype Status = Running | Stopped | Triggered | Expired

  datatype Hit = Hit(time: int, price: real, reason: string)

  function Abs(x: real): real {
    if x < 0.0 then -x else x
  }

  /** The absolute percentage move of `price` away from `base`. */
  function PercentMove(price: real, base: real): real
    requires base != 0.0
  {
    Abs((price - base) / base * 100.0)
  }

  /** `testRule`: whether a quote satisfies a rule. A percentage rule never fires without a
      positive baseline (a missing, zero or negative baseline is falsy or rejected). */
  predicate TestRule(rule: ThresholdRule, price: real, baseline: Option<real>) {
    match rule
    case Above(v) => price >= v
    case Below(v) => price <= v
    case PercentChange(v) =>
      if baseline.None? || baseline.value <= 0.0 then false
      else PercentMove(price, baseline.value) >= v
  }

  /** For a positive base, a move of `x` is at least `v` percent of it exactly when `x` is at
      least `v` hundredths of the base. */
  lemma ScaledAtLeast(x: real, b: real, v: real)
    requires b > 0.0
    ensures x / b * 100.0 >= v <==> x >= b * v / 100.0
  {
    var k := b / 100.0;
    var a := x / b * 100.0;
    assert a * k == x;
    assert v * k == b * v / 100.0;
    assert (a - v) * k == x - b * v / 100.0;
    if a >= v {
      assert (a - v) * k >= 0.0;
    }
    if x >= b * v / 100.0 {
      assert (a - v) * k >= 0.0;
      assert a - v == (a - v) * k / k;
    }
  }

  /** A percentage rule with a positive baseline `b` fires exactly outside the open band
      `(b - b*v/100, b + b*v/100)`. */
  lemma PercentRuleBand(v: real, price: real, b: real)
    requires b > 0.0
    ensures TestRule(PercentChange(v), price, Some(b))
        <==> price >= b + b * v / 100.0 || price <= b - b * v / 100.0
  {
    var d := price - b;
    var w := b * v / 100.0;
    ScaledAtLeast(d, b, v);
    ScaledAtLeast(-d, b, v);
    assert (-d) / b * 100.0 == -(d / b * 100.0);
    assert PercentMove(price, b) == Abs(d / b * 100.0);
    if d >= 0.0 {
      assert d / b * 100.0 >= 0.0;
    } else {
      assert d / b * 100.0 < 0.0;
    }
  }

  /** A percentage rule whose threshold is not positive fires on the first quote whenever a
      positive baseline was captured. */
  lemma NonPositivePercentFiresAtOnce(v: real, price: real, b: real)
    requires b > 0.0 && v <= 0.0
    ensures TestRule(PercentChange(v), price, Some(b))
  {
  }

  /** The facts a trigger reason reports; the text itself (number formatting) is a parameter. */
  datatype Reason =
    | AtOrAbove(price: real, threshold: real)
    | AtOrBelow(price: real, threshold: real)
    | Fluctuation(percent: real, threshold: real)

  predicate ReasonHolds(r: Reason) {
    match r
    case AtOrAbove(p, t) => p >= t
    case AtOrBelow(p, t) => p <= t
    case Fluctuation(pct, t) => pct >= t
  }

  /** `reasonForHit`: the reason reports the rule's own threshold, and whenever the rule fired on
      this quote the comparison it reports holds. Without a baseline the move is measured from the
      price itself (0%), and a zero base reports 0%. */
  function ReasonForHit(rule: ThresholdRule, price: real, baseline: Option<real>): (r: Reason)
    ensures r.threshold == rule.value
    ensures rule.Above? <==> r.AtOrAbove?
    ensures rule.Below? <==> r.AtOrBelow?
    ensures baseline.None? && rule.PercentChange? ==> r == Fluctuation(0.0, rule.value)
    ensures TestRule(rule, price, baseline) ==> ReasonHolds(r)
  {
    match rule
    case Above(v) => AtOrAbove(price, v)
    case Below(v) => AtOrBelow(price, v)
    case PercentChange(v) =>
      var base := baseline.GetOr(price);
      Fluctuation(if base != 0.0 then PercentMove(price, base) else 0.0, v)
  }

  /** The polling period: whole seconds, at least 5, default 30. */
  function IntervalMs(intervalSeconds: Option<real>): (ms: int)
    ensures ms >= 5000 && ms % 1000 == 0
    ensures intervalSeconds.None? ==> ms == 30000
    ensures intervalSeconds.Some? && intervalSeconds.value >= 5.0 ==> ms == intervalSeconds.value.Floor * 1000
    ensures intervalSeconds.Some? && intervalSeconds.value < 5.0 ==> ms == 5000
  {
    var secs := intervalSeconds.GetOr(30.0).Floor;
    (if secs >= 5 then secs else 5) * 1000
  }

  /** The lifetime in whole minutes, clamped to 1..30, default 30. */
  function DurationMin(durationMinutes: Option<real>): (m: int)
    ensures 1 <= m <= 30
    ensures durationMinutes.None? ==> m == 30
    ensures durationMinutes.Some? && 1.0 <= durationMinutes.value < 31.0 ==> m == durationMinutes.value.Floor
    ensures durationMinutes.Some? && durationMinutes.value < 1.0 ==> m == 1
    ensures durationMinutes.Some? && durationMinutes.value >= 30.0 ==> m == 30
  {
    var mins := durationMinutes.GetOr(30.0).Floor;
    if mins < 1 then 1 else if mins > 30 then 30 else mins
  }

  /** The delay of the expiry timer: the whole lifetime plus the grace period. */
  function ExpiryDelayMs(durationMinutes: Option<real>): (ms: int)
    ensures 60000 + ExpiryGraceMs <= ms <= 1800000 + ExpiryGraceMs
  {
    DurationMin(durationMinutes) * 60000 + ExpiryGraceMs
  }

  function TriggerSubject(ticker: string): string {
    SubjectPrefix + ticker
  }

  function TriggerText(conversationId: string, ticker: string, reason: string): string {
    "session " + conversationId + " | stock " + ticker + " trigger rules: " + reason
  }

  /** The public view of a task: everything but the timer handles. */
  datatype TaskView = TaskView(
    id: string, conversationId: string, userId: string, email: string, ticker: string,
    rule: ThresholdRule, intervalMs: int, startedAt: int, expiresAt: int, status: Status,
    lastPrice: Option<real>, baselinePrice: Option<real>, hits: seq<Hit>)

  /** A monitoring task. Fields the source never writes after creation are constants;
      `armed` stands for the two timer handles, which are always set and cleared together. */
  class Task {
    const id: string
    const conversationId: string
    const userId: string
    const email: string
    const ticker: string
    const rule: ThresholdRule
    const intervalMs: int
    const startedAt: int
    const expiresAt: int
    const baselinePrice: Option<real>
    var status: Status
    var lastPrice: Option<real>
    var hits: seq<Hit>
    var armed: bool

    /** What `startMonitor` guarantees of every task it creates. */
    ghost predicate WellFormed() {
      && intervalMs >= 5000 && intervalMs % 1000 == 0
      && startedAt + 60000 <= expiresAt <= startedAt + 1800000
      && (baselinePrice.Some? ==> rule.PercentChange?)
      && HasNoLowerAscii(ticker)
    }

    constructor (id: string, conversationId: string, userId: string, email: string, ticker: string,
                 rule: ThresholdRule, intervalSeconds: Option<real>, durationMinutes: Option<real>,
                 now: int, quote: Option<real>)
      ensures WellFormed()
      ensures this.id == id && this.conversationId == conversationId && this.userId == userId
      ensures this.email == email && this.ticker == Upper(ticker) && this.rule == rule
      ensures intervalMs == IntervalMs(intervalSeconds)
      ensures startedAt == now && expiresAt == now + DurationMin(durationMinutes) * 60000
      ensures baselinePrice == if rule.PercentChange? then quote else None
      ensures status == Running && lastPrice == None && hits == [] && armed
    {
      this.id := id;
      this.conversationId := conversationId;
      this.userId := userId;
      this.email := email;
      this.ticker := Upper(ticker);
      this.rule := rule;
      this.intervalMs := IntervalMs(intervalSeconds);
      this.startedAt := now;
      this.expiresAt := now + DurationMin(durationMinutes) * 60000;
      this.baselinePrice := if rule.PercentChange? then quote else None;
      status := Running;
      lastPrice := None;
      hits := [];
      armed := true;
      UpperIsUpper(ticker);
    }
  }

  function ToPublicTask(t: Task): TaskView
    reads t
  {
    TaskView(t.id, t.conversationId, t.userId, t.email, t.ticker, t.rule, t.intervalMs,
             t.startedAt, t.expiresAt, t.status, t.lastPrice, t.baselinePrice, t.hits)
  }

  function ViewsOf(list: seq<Task>): (r: seq<TaskView>)
    reads list
    ensures |r| == |list|
  {
    if list == [] then [] else ViewsOf(list[..|list| - 1]) + [ToPublicTask(list[|list| - 1])]
  }

  /** The views are those of the tasks, position by position. */
  lemma {:induction false} ViewsOfPointwise(list: seq<Task>)
    ensures forall i :: 0 <= i < |list| ==> ViewsOf(list)[i] == ToPublicTask(list[i])
  {
    if list != [] {
      ViewsOfPointwise(list[..|list| - 1]);
    }
  }

  /** Viewing one more task of a list appended after `done`. */
  lemma ViewsOfStep(done: seq<Task>, list: seq<Task>, j: nat)
    requires j < |list|
    ensures ViewsOf(done + list[..j + 1]) == ViewsOf(done + list[..j]) + [ToPublicTask(list[j])]
  {
    var next := done + list[..j + 1];
    assert next[..|next| - 1] == done + list[..j];
  }

  /** The number of tasks in `list` whose status is running. */
  function RunningCount(list: seq<Task>): (n: nat)
    reads list
    ensures n <= |list|
    ensures n == |list| <==> forall t :: t in list ==> t.status == Running
  {
    if list == [] then 0
    else RunningCount(list[..|list| - 1]) + (if list[|list| - 1].status == Running then 1 else 0)
  }

  /** A task id is given when it is truthy; an empty id means "every task". */
  predicate IdGiven(taskId: Option<string>) {
    taskId.Some? && taskId.value != ""
  }

  /** Whether a stop request with `taskId` applies to task `t`. */
  predicate Names(taskId: Option<string>, t: Task) {
    !IdGiven(taskId) || t.id == taskId.value
  }

  /** The number of tasks in `list` a stop request with `taskId` applies to. */
  function MatchCount(list: seq<Task>, taskId: Option<string>): (n: nat)
    ensures n <= |list|
    ensures !IdGiven(taskId) ==> n == |list|
  {
    if list == [] then 0
    else MatchCount(list[..|list| - 1], taskId) + (if Names(taskId, list[|list| - 1]) then 1 else 0)
  }

  /** `list.filter(t => t.id !== id)`. */
  function Remaining(list: seq<Task>, id: string): (r: seq<Task>)
    ensures |r| <= |list|
  {
    if list == [] then []
    else Remaining(list[..|list| - 1], id) + (if list[|list| - 1].id != id then [list[|list| - 1]] else [])
  }

  /** The filter keeps exactly the tasks with another id. */
  lemma {:induction false} RemainingMembers(list: seq<Task>, id: string)
    ensures forall t :: t in Remaining(list, id) <==> t in list && t.id != id
  {
    if list != [] {
      var init := list[..|list| - 1];
      RemainingMembers(init, id);
      assert list == init + [list[|list| - 1]];
    }
  }

  /** What the filter drops is exactly what a stop by that id counts, and nothing it keeps
      would be counted by a second stop with the same id. */
  lemma {:induction false} RemainingCount(list: seq<Task>, id: string)
    requires id != ""
    ensures |Remaining(list, id)| + MatchCount(list, Some(id)) == |list|
    ensures MatchCount(Remaining(list, id), Some(id)) == 0
  {
    if list != [] {
      var init := list[..|list| - 1];
      RemainingCount(init, id);
      var t := list[|list| - 1];
      if t.id != id {
        var r := Remaining(list, id);
        assert r == Remaining(init, id) + [t];
        assert r[..|r| - 1] == Remaining(init, id);
      } else {
        assert Remaining(list, id) == Remaining(init, id);
      }
    }
  }

  /** The filter keeps the surviving tasks in their order. */
  lemma {:induction false} RemainingInOrder(list: seq<Task>, id: string)
    ensures IsOrderedSubsequence(Remaining(list, id), list)
  {
    if list != [] {
      var init := list[..|list| - 1];
      RemainingInOrder(init, id);
      var t := list[|list| - 1];
      var r := Remaining(list, id);
      if t.id != id {
        assert r == Remaining(init, id) + [t];
        assert r[..|r| - 1] == Remaining(init, id);
      } else {
        assert r == Remaining(init, id);
        SubsequenceDropLast(r, list);
      }
    }
  }

  /** `a` is `b` with some elements left out, order kept. */
  predicate IsOrderedSubsequence(a: seq<Task>, b: seq<Task>)
    decreases |b|
  {
    if a == [] then true
    else if b == [] then false
    else if a[|a| - 1] == b[|b| - 1] then IsOrderedSubsequence(a[..|a| - 1], b[..|b| - 1])
    else IsOrderedSubsequence(a, b[..|b| - 1])
  }

  lemma SubsequenceDropLast(a: seq<Task>, b: seq<Task>)
    requires |b| >= 1 && IsOrderedSubsequence(a, b[..|b| - 1])
    ensures IsOrderedSubsequence(a, b)
    decreases |b|, 0
  {
    if a != [] && a[|a| - 1] == b[|b| - 1] {
      SubsequenceDropLastElem(a, b[..|b| - 1]);
    }
  }

  lemma SubsequenceDropLastElem(a: seq<Task>, b: seq<Task>)
    requires a != [] && IsOrderedSubsequence(a, b)
    ensures IsOrderedSubsequence(a[..|a| - 1], b)
    decreases |b|, 1
  {
    if b != [] {
      var b' := b[..|b| - 1];
      if a[|a| - 1] == b[|b| - 1] {
        SubsequenceDropLast(a[..|a| - 1], b);
      } else {
        SubsequenceDropLastElem(a, b');
        SubsequenceDropLast(a[..|a| - 1], b);
      }
    }
  }

  /** The registry after a stop request: a named stop replaces the list by what the filter keeps
      (creating the key if absent); an unnamed stop deletes the key. */
  function RegistryAfterStop(m: map<string, seq<Task>>, conversationId: string, taskId: Option<string>)
    : (r: map<string, seq<Task>>)
    ensures forall k :: k != conversationId ==> (k in r <==> k in m) && Get(r, k) == Get(m, k)
    ensures IdGiven(taskId) ==> conversationId in r
    ensures !IdGiven(taskId) ==> conversationId !in r
  {
    if IdGiven(taskId) then m[conversationId := Remaining(Get(m, conversationId), taskId.value)]
    else m - {conversationId}
  }

  /** `tasksMap.get(id) || []`. */
  function Get(m: map<string, seq<Task>>, conversationId: string): seq<Task> {
    if conversationId in m then m[conversationId] else []
  }

  /** The JavaScript `Map`'s key order after a stop request: `set` appends a new key at the end,
      `delete` removes it. */
  function OrderAfterStop(order: seq<string>, m: map<string, seq<Task>>, conversationId: string,
                          taskId: Option<string>): (r: seq<string>)
    ensures IdGiven(taskId) ==> order <= r && forall k :: k in r ==> k in order || k == conversationId
    ensures !IdGiven(taskId) ==> forall k :: k in r <==> k in order && k != conversationId
    ensures !IdGiven(taskId) ==> r == Without(order, conversationId)
  {
    if IdGiven(taskId) then
      (if conversationId in m then order else order + [conversationId])
    else Without(order, conversationId)
  }

  /** The key order after `Map.delete(key)`. */
  function Without(order: seq<string>, key: string): (r: seq<string>)
    ensures forall k :: k in r <==> k in order && k != key
    ensures NoDuplicates(order) ==> NoDuplicates(r)
  {
    if order == [] then []
    else if order[|order| - 1] == key then Without(order[..|order| - 1], key)
    else
      var init := order[..|order| - 1];
      assert NoDuplicates(order) ==> order[|order| - 1] !in init;
      Without(init, key) + [order[|order| - 1]]
  }

  /** Deleting a key from a single-key order. */
  lemma WithoutSingle(x: string, key: string)
    ensures Without([x], key) == if x == key then [] else [x]
  {
    assert [x][..0] == [];
  }

  /** `Map.delete` works key by key and keeps the others in insertion order: deleting from a
      concatenation deletes from each part. With `WithoutSingle` this determines `Without`. */
  lemma {:induction false} WithoutAppend(a: seq<string>, b: seq<string>, key: string)
    ensures Without(a + b, key) == Without(a, key) + Without(b, key)
    decreases |b|
  {
    if b == [] {
      assert a + b == a;
    } else {
      var init := b[..|b| - 1];
      var x := b[|b| - 1];
      WithoutAppend(a, init, key);
      assert (a + b)[..|a + b| - 1] == a + init;
      var tail := if x == key then [] else [x];
      calc {
        Without(a + b, key);
        Without(a + init, key) + tail;
        (Without(a, key) + Without(init, key)) + tail;
        Without(a, key) + (Without(init, key) + tail);
        Without(a, key) + Without(b, key);
      }
    }
  }

  predicate NoDuplicates(s: seq<string>) {
    forall i, j :: 0 <= i < j < |s| ==> s[i] != s[j]
  }

  /** The registry's keys are exactly the listed keys, each once. */
  ghost predicate KeysListed(m: map<string, seq<Task>>, order: seq<string>) {
    (forall c :: c in m <==> c in order) && NoDuplicates(order)
  }

  /** Every registered task was created and is filed under its own conversation. */
  ghost predicate Filed(m: map<string, seq<Task>>, all: set<Task>) {
    forall c, t :: c in m && t in m[c] ==> t in all && t.conversationId == c
  }

  /** No conversation's list is longer than the cap. */
  ghost predicate Capped(m: map<string, seq<Task>>) {
    forall c :: c in m ==> |m[c]| <= MaxRunning
  }

  /** The registry's keys are exactly the listed keys, each once; every registered task was
      created, is filed under its own conversation, and no list is longer than the cap. */
  ghost predicate RegistryShape(m: map<string, seq<Task>>, order: seq<string>, all: set<Task>) {
    KeysListed(m, order) && Filed(m, all) && Capped(m)
  }

  /** A stop request unregisters exactly the tasks of that conversation it names. */
  lemma RegistryAfterStopMembers(m: map<string, seq<Task>>, c: string, taskId: Option<string>, k: string, t: Task)
    ensures t in Get(RegistryAfterStop(m, c, taskId), k) <==> t in Get(m, k) && !(k == c && Names(taskId, t))
  {
    if IdGiven(taskId) {
      RemainingMembers(Get(m, c), taskId.value);
    }
  }

  /** Registering a new task under a conversation that has room keeps the registry's shape. */
  lemma ShapeAfterStart(m: map<string, seq<Task>>, order: seq<string>, all: set<Task>, t: Task)
    requires RegistryShape(m, order, all) && t !in all && |Get(m, t.conversationId)| < MaxRunning
    ensures var c := t.conversationId;
      RegistryShape(m[c := Get(m, c) + [t]], if c in m then order else order + [c], all + {t})
  {
    var c := t.conversationId;
    var m' := m[c := Get(m, c) + [t]];
    var order' := if c in m then order else order + [c];
    forall k, u | k in m' && u in m'[k]
      ensures u in all + {t} && u.conversationId == k
    {
      if k == c && u != t {
        assert u in Get(m, c);
      }
    }
  }

  /** After a stop request every registered task is still one that was created, filed under
      its own conversation. */
  lemma FiledAfterStop(m: map<string, seq<Task>>, all: set<Task>, c: string, taskId: Option<string>)
    requires Filed(m, all)
    ensures Filed(RegistryAfterStop(m, c, taskId), all)
  {
    var m' := RegistryAfterStop(m, c, taskId);
    forall k, t | k in m' && t in m'[k]
      ensures t in all && t.conversationId == k
    {
      RegistryAfterStopMembers(m, c, taskId, k, t);
    }
  }

  /** A stop request keeps the key order in step with the registry's keys, without repeats. */
  lemma KeysListedAfterStop(m: map<string, seq<Task>>, order: seq<string>, c: string, taskId: Option<string>)
    requires KeysListed(m, order)
    ensures KeysListed(RegistryAfterStop(m, c, taskId), OrderAfterStop(order, m, c, taskId))
  {
    if IdGiven(taskId) && c !in m {
      var order' := order + [c];
      assert forall i :: 0 <= i < |order| ==> order'[i] == order[i];
    }
  }

  /** A stop request never lengthens a conversation's list. */
  lemma CappedAfterStop(m: map<string, seq<Task>>, c: string, taskId: Option<string>)
    requires Capped(m)
    ensures Capped(RegistryAfterStop(m, c, taskId))
  {
    var m' := RegistryAfterStop(m, c, taskId);
    forall k | k in m' ensures |m'[k]| <= MaxRunning {
      assert m'[k] == Get(m', k);
      if k == c {
        assert m'[k] == Remaining(Get(m, c), taskId.value);
      }
    }
  }

  /** A stop request keeps the registry's shape. */
  lemma ShapeAfterStop(m: map<string, seq<Task>>, order: seq<string>, all: set<Task>, c: string, taskId: Option<string>)
    requires RegistryShape(m, order, all)
    ensures RegistryShape(RegistryAfterStop(m, c, taskId), OrderAfterStop(order, m, c, taskId), all)
  {
    FiledAfterStop(m, all, c, taskId);
    KeysListedAfterStop(m, order, c, taskId);
    CappedAfterStop(m, c, taskId);
  }

  /** Counting one more task of the list. */
  lemma MatchCountStep(list: seq<Task>, i: nat, taskId: Option<string>)
    requires i < |list|
    ensures MatchCount(list[..i + 1], taskId) == MatchCount(list[..i], taskId) + if Names(taskId, list[i]) then 1 else 0
  {
    assert list[..i + 1][..i] == list[..i];
  }

  /** Clears one task's timer and marks it stopped unless it already finished. */
  method StopTask(t: Task)
    modifies t`armed, t`status
    ensures !t.armed && t.status == (if old(t.status) == Running then Stopped else old(t.status))
  {
    t.armed := false;
    if t.status == Running {
      t.status := Stopped;
    }
  }

  /** The loop of `stopMonitor` over one conversation's list: each task the request names has its
      timers cleared and, if it was running, becomes stopped; the count is how many were named. */
  method StopEach(list: seq<Task>, taskId: Option<string>) returns (stopped: nat)
    modifies list`armed, list`status
    ensures stopped == MatchCount(list, taskId)
    ensures forall t :: t in list && Names(taskId, t) ==>
              !t.armed && t.status == (if old(t.status) == Running then Stopped else old(t.status))
    ensures forall t :: t in list && !Names(taskId, t) ==> t.status == old(t.status) && t.armed == old(t.armed)
    ensures forall t :: t in list ==> t.hits == old(t.hits) && t.lastPrice == old(t.lastPrice)
  {
    stopped := 0;
    ghost var done: set<Task> := {};
    for i := 0 to |list|
      invariant stopped == MatchCount(list[..i], taskId)
      invariant forall j :: 0 <= j < i && Names(taskId, list[j]) ==> list[j] in done
      invariant forall t :: t in done ==> t in list && Names(taskId, t)
      invariant forall t :: t in done ==>
                  !t.armed && t.status == (if old(t.status) == Running then Stopped else old(t.status))
      invariant forall t :: t in list && t !in done ==> t.status == old(t.status) && t.armed == old(t.armed)
    {
      var t := list[i];
      MatchCountStep(list, i, taskId);
      if Names(taskId, t) {
        StopTask(t);
        done := done + {t};
        stopped := stopped + 1;
      }
    }
    assert list[..|list|] == list;
  }

  /** The process-wide monitor registry. `order` lists the map's keys in insertion order, since
      listing every task walks the JavaScript `Map` in that order. */
  class MonitorManager {
    var tasks: map<string, seq<Task>>
    var order: seq<string>
    /** The shared mock mailbox. */
    const mail: Notify.EmailStore
    /** Every task ever created. */
    ghost var all: set<Task>
    /** One occurrence of a task per trigger email sent about it. */
    ghost var notified: multiset<Task>

    /** The tasks registered under `conversationId`. */
    ghost function Members(conversationId: string): set<Task>
      reads this
    {
      set t | t in Get(tasks, conversationId)
    }

    ghost predicate Registered(t: Task)
      reads this
    {
      t in Get(tasks, t.conversationId)
    }

    ghost predicate Shape()
      reads this
    {
      RegistryShape(tasks, order, all)
    }

    /** What holds of each created task. `pending` is a task that has just fired or expired and
        whose own stop request is under way: it is still registered with its timers set. */
    ghost predicate TaskOk(t: Task, pending: Option<Task>)
      reads this, t
    {
      && t.WellFormed()
      && notified[t] == |t.hits|
      && |t.hits| == (if t.status == Triggered then 1 else 0)
      && if pending == Some(t) then
           Registered(t) && t.armed && (t.status == Triggered || t.status == Expired)
         else
           (Registered(t) <==> t.status == Running) && (t.armed <==> t.status == Running)
    }

    ghost predicate Invariant(pending: Option<Task>)
      reads this, all
    {
      && Shape()
      && (forall t :: t in notified ==> t in all)
      && (pending.Some? ==> pending.value in all)
      && forall t :: t in all ==> TaskOk(t, pending)
    }

    /** The registry holds exactly the running tasks, at most three per conversation, and every
        task has been reported by email once if it fired and never otherwise. */
    ghost predicate Valid()
      reads this, all
    {
      Invariant(None)
    }

    constructor (mail: Notify.EmailStore)
      ensures Valid()
      ensures tasks == map[] && order == [] && all == {} && this.mail == mail
    {
      tasks := map[];
      order := [];
      this.mail := mail;
      all := {};
      notified := multiset{};
    }

    /** `stopMonitor`: stops every task of the conversation that the request names (all of them
        when no truthy id is given), clearing its timers and marking it stopped unless it already
        fired or expired; then drops those tasks from the registry. Repeating the request stops
        nothing more. */
    method StopMonitor(conversationId: string, taskId: Option<string>, ghost pending: Option<Task>)
      returns (stopped: nat)
      requires Invariant(pending)
      requires pending.Some? ==> pending.value.conversationId == conversationId && Names(taskId, pending.value)
      modifies this, Members(conversationId)
      ensures Valid()
      ensures stopped == MatchCount(old(Get(tasks, conversationId)), taskId)
      ensures tasks == RegistryAfterStop(old(tasks), conversationId, taskId)
      ensures order == OrderAfterStop(old(order), old(tasks), conversationId, taskId)
      ensures all == old(all) && notified == old(notified)
      ensures forall t :: t in old(Get(tasks, conversationId)) && Names(taskId, t) ==>
                !t.armed && t.status == (if old(t.status) == Running then Stopped else old(t.status))
      ensures forall t :: t in old(Get(tasks, conversationId)) && !Names(taskId, t) ==>
                t.status == old(t.status) && t.armed == old(t.armed)
      ensures forall t :: t in old(Get(tasks, conversationId)) ==>
                t.hits == old(t.hits) && t.lastPrice == old(t.lastPrice)
      ensures MatchCount(Get(tasks, conversationId), taskId) == 0
    {
      var list := Get(tasks, conversationId);
      stopped := StopEach(list, taskId);
      forall t | t in all
        ensures StoppingOk(t, conversationId, taskId)
      {
        assert old(TaskOk(t, pending));
      }
      Unregister(conversationId, taskId);
    }

    /** What holds of a created task between the two halves of a stop request: the tasks the
        request names have had their timers cleared and are no longer running, but are still
        registered; every other task is as `TaskOk` describes. */
    ghost predicate StoppingOk(t: Task, conversationId: string, taskId: Option<string>)
      reads this, t
    {
      && t.WellFormed()
      && notified[t] == |t.hits|
      && |t.hits| == (if t.status == Triggered then 1 else 0)
      && if t in Get(tasks, conversationId) && Names(taskId, t) then
           !t.armed && t.status != Running
         else
           (Registered(t) <==> t.status == Running) && (t.armed <==> t.status == Running)
    }

    /** The registry update of `stopMonitor`: a named stop keeps the other tasks of the
        conversation, an unnamed one deletes the conversation's entry. */
    method Unregister(conversationId: string, taskId: Option<string>)
      requires Shape() && forall t :: t in notified ==> t in all
      requires forall t :: t in all ==> StoppingOk(t, conversationId, taskId)
      modifies this`tasks, this`order
      ensures Valid()
      ensures tasks == RegistryAfterStop(old(tasks), conversationId, taskId)
      ensures order == OrderAfterStop(old(order), old(tasks), conversationId, taskId)
      ensures MatchCount(Get(tasks, conversationId), taskId) == 0
    {
      var list := Get(tasks, conversationId);
      ghost var before := tasks;
      ShapeAfterStop(tasks, order, all, conversationId, taskId);
      if IdGiven(taskId) {
        RemainingCount(list, taskId.value);
        if conversationId !in tasks {
          order := order + [conversationId];
        }
        tasks := tasks[conversationId := Remaining(list, taskId.value)];
      } else {
        tasks := tasks - {conversationId};
        order := Without(order, conversationId);
      }
      assert tasks == RegistryAfterStop(before, conversationId, taskId);
      forall t | t in all
        ensures TaskOk(t, None)
      {
        assert old(StoppingOk(t, conversationId, taskId));
        RegistryAfterStopMembers(before, conversationId, taskId, t.conversationId, t);
        if t in list && Names(taskId, t) {
          assert !Registered(t);
        } else {
          assert Registered(t) == old(Registered(t));
        }
      }
    }

    /** `stopAllForConversation`: stops and unregisters every task of the conversation. */
    method StopAllForConversation(conversationId: string) returns (stopped: nat)
      requires Valid()
      modifies this, Members(conversationId)
      ensures Valid()
      ensures stopped == |old(Get(tasks, conversationId))|
      ensures conversationId !in tasks && tasks == old(tasks) - {conversationId}
      ensures forall t :: t in old(Get(tasks, conversationId)) ==> !t.armed && t.status == Stopped
    {
      assert forall t :: t in Get(tasks, conversationId) ==> t in all && TaskOk(t, None) && Registered(t);
      stopped := StopMonitor(conversationId, None, None);
    }

    /** `startMonitor`: refuses when the conversation already runs three tasks (changing
        nothing); otherwise registers a new running task at the end of the conversation's list. */
    method StartMonitor(conversationId: string, userId: string, email: string, ticker: string,
                        rule: ThresholdRule, intervalSeconds: Option<real>, durationMinutes: Option<real>,
                        id: string, now: int, quote: Option<real>)
      returns (r: Result<Task, string>)
      requires Valid()
      modifies this
      ensures Valid()
      ensures r.Failure? <==> old(RunningCount(Get(tasks, conversationId))) >= MaxRunning
      ensures r.Failure? ==> r.error == CapacityError && tasks == old(tasks) && order == old(order) && all == old(all)
      ensures r.Success? ==>
                var t := r.value;
                && fresh(t) && all == old(all) + {t}
                && t.id == id && t.conversationId == conversationId && t.userId == userId && t.email == email
                && t.ticker == Upper(ticker) && t.rule == rule && t.intervalMs == IntervalMs(intervalSeconds)
                && t.startedAt == now && t.expiresAt == now + DurationMin(durationMinutes) * 60000
                && t.expiresAt + ExpiryGraceMs == now + ExpiryDelayMs(durationMinutes)
                && t.baselinePrice == (if rule.PercentChange? then quote else None)
                && t.status == Running && t.lastPrice == None && t.hits == [] && t.armed
                && tasks == old(tasks)[conversationId := old(Get(tasks, conversationId)) + [t]]
                && order == if conversationId in old(tasks) then old(order) else old(order) + [conversationId]
      ensures notified == old(notified)
    {
      var list := Get(tasks, conversationId);
      var running := RunningCount(list);
      if running >= MaxRunning {
        return Failure(CapacityError);
      }
      assert forall t :: t in list ==> t in all && TaskOk(t, None) && Registered(t);
      assert |list| < MaxRunning;
      var t := new Task(id, conversationId, userId, email, ticker, rule, intervalSeconds, durationMinutes, now, quote);
      Register(t);
      r := Success(t);
    }

    /** Files a new running task at the end of its conversation's list
        (`tasksMap.set(conversationId, [...list, task])`). */
    method Register(t: Task)
      requires Valid() && t !in all && |Get(tasks, t.conversationId)| < MaxRunning
      requires t.WellFormed() && t.status == Running && t.hits == [] && t.armed
      modifies this`tasks, this`order, this`all
      ensures Valid() && all == old(all) + {t}
      ensures tasks == old(tasks)[t.conversationId := old(Get(tasks, t.conversationId)) + [t]]
      ensures order == if t.conversationId in old(tasks) then old(order) else old(order) + [t.conversationId]
    {
      var c := t.conversationId;
      var list := Get(tasks, c);
      ShapeAfterStart(tasks, order, all, t);
      var order' := if c in tasks then order else order + [c];
      tasks, order, all := tasks[c := list + [t]], order', all + {t};
      forall u | u in all
        ensures TaskOk(u, None)
      {
        if u != t {
          assert old(TaskOk(u, None));
          assert Registered(u) == old(Registered(u)) by {
            if u.conversationId == c {
              assert u in list + [t] <==> u in list;
            }
          }
        }
      }
    }

    /** One tick of a task's polling timer, given the quote fetched for it (`None` when the
        fetch failed). A task that is not running, or a failed fetch, changes nothing. Otherwise
        the price is recorded; if the rule holds the task becomes triggered, records its one hit,
        sends one mock email and is stopped and unregistered. */
    method Poll(task: Task, quote: Option<real>, now: int, format: Reason -> string)
      requires Valid() && task in all
      modifies this, task, mail, Members(task.conversationId)
      ensures Valid() && all == old(all)
      ensures old(task.status) != Running || quote.None? ==>
                && tasks == old(tasks) && order == old(order) && notified == old(notified)
                && task.status == old(task.status) && task.lastPrice == old(task.lastPrice)
                && task.hits == old(task.hits) && mail.emails == old(mail.emails)
      ensures old(task.status) == Running && quote.Some? ==> task.lastPrice == quote
      ensures old(task.status) == Running && quote.Some? && !TestRule(task.rule, quote.value, task.baselinePrice) ==>
                && tasks == old(tasks) && order == old(order) && notified == old(notified)
                && task.status == Running && task.hits == [] && mail.emails == old(mail.emails)
      ensures old(task.status) == Running && quote.Some? && TestRule(task.rule, quote.value, task.baselinePrice) ==>
                var reason := format(ReasonForHit(task.rule, quote.value, task.baselinePrice));
                && task.status == Triggered && !task.armed && !Registered(task)
                && task.hits == [Hit(now, quote.value, reason)]
                && mail.emails == old(mail.emails) + [Notify.MockEmail(task.email, TriggerSubject(task.ticker),
                                                       TriggerText(task.conversationId, task.ticker, reason), now)]
                && notified == old(notified) + multiset{task}
                && tasks == RegistryAfterStop(old(tasks), task.conversationId, Some(task.id))
                && order == OrderAfterStop(old(order), old(tasks), task.conversationId, Some(task.id))
      ensures forall u :: u in old(Get(tasks, task.conversationId)) && u != task ==>
                var stop := old(task.status) == Running && quote.Some? &&
                            TestRule(task.rule, quote.value, task.baselinePrice) && Names(Some(task.id), u);
                && u.lastPrice == old(u.lastPrice) && u.hits == old(u.hits)
                && u.status == (if stop && old(u.status) == Running then Stopped else old(u.status))
                && u.armed == (if stop then false else old(u.armed))
    {
      if task.status != Running || quote.None? {
        return;
      }
      var price := quote.value;
      task.lastPrice := Some(price);
      assert forall u :: u in all && u != task ==> old(TaskOk(u, None)) && TaskOk(u, None);
      if TestRule(task.rule, price, task.baselinePrice) {
        Trigger(task, price, now, format);
      }
    }

    /** The firing branch of a poll: the task becomes triggered, records its hit, one mock email
        goes out, and the task's own stop request follows (which leaves the status triggered). */
    method Trigger(task: Task, price: real, now: int, format: Reason -> string)
      requires Valid() && task in all && task.status == Running
      modifies this, task, mail, Members(task.conversationId)
      ensures Valid() && all == old(all) && task.lastPrice == old(task.lastPrice)
      ensures var reason := format(ReasonForHit(task.rule, price, task.baselinePrice));
                && task.status == Triggered && !task.armed && !Registered(task)
                && task.hits == [Hit(now, price, reason)]
                && mail.emails == old(mail.emails) + [Notify.MockEmail(task.email, TriggerSubject(task.ticker),
                                                       TriggerText(task.conversationId, task.ticker, reason), now)]
                && notified == old(notified) + multiset{task}
                && tasks == RegistryAfterStop(old(tasks), task.conversationId, Some(task.id))
                && order == OrderAfterStop(old(order), old(tasks), task.conversationId, Some(task.id))
      ensures forall u :: u in old(Get(tasks, task.conversationId)) && u != task ==>
                && u.lastPrice == old(u.lastPrice) && u.hits == old(u.hits)
                && u.status == (if Names(Some(task.id), u) && old(u.status) == Running then Stopped else old(u.status))
                && u.armed == (if Names(Some(task.id), u) then false else old(u.armed))
    {
      Fire(task, price, now, format);
      var stopped := StopMonitor(task.conversationId, Some(task.id), Some(task));
      ForgetStopped(old(tasks), tasks, task);
    }

    /** The task becomes triggered, records its hit and one mock email goes out; it is still
        registered, with its timers set, until its stop request runs. */
    method Fire(task: Task, price: real, now: int, format: Reason -> string)
      requires Valid() && task in all && task.status == Running
      modifies this`notified, task`status, task`hits, mail
      ensures Invariant(Some(task))
      ensures var reason := format(ReasonForHit(task.rule, price, task.baselinePrice));
                && task.status == Triggered && task.hits == [Hit(now, price, reason)]
                && mail.emails == old(mail.emails) + [Notify.MockEmail(task.email, TriggerSubject(task.ticker),
                                                       TriggerText(task.conversationId, task.ticker, reason), now)]
                && notified == old(notified) + multiset{task}
    {
      assert TaskOk(task, None) && Registered(task);
      task.status := Triggered;
      var reason := format(ReasonForHit(task.rule, price, task.baselinePrice));
      task.hits := task.hits + [Hit(now, price, reason)];
      var sent := mail.SendEmailMock(task.email, TriggerSubject(task.ticker),
                                     TriggerText(task.conversationId, task.ticker, reason), now);
      notified := notified + multiset{task};
      forall u | u in all
        ensures TaskOk(u, Some(task))
      {
        if u != task {
          assert old(TaskOk(u, None));
        }
      }
    }

    /** The expiry timer of a task: a running task becomes expired; either way the task's stop
        request follows. */
    method Expire(task: Task)
      requires Valid() && task in all
      modifies this, task, Members(task.conversationId)
      ensures Valid() && all == old(all) && notified == old(notified)
      ensures task.status == if old(task.status) == Running then Expired else old(task.status)
      ensures !task.armed && !Registered(task)
      ensures tasks == RegistryAfterStop(old(tasks), task.conversationId, Some(task.id))
      ensures order == OrderAfterStop(old(order), old(tasks), task.conversationId, Some(task.id))
      ensures forall u :: u in old(Get(tasks, task.conversationId)) && u != task ==>
                && u.lastPrice == old(u.lastPrice) && u.hits == old(u.hits)
                && u.status == (if Names(Some(task.id), u) && old(u.status) == Running then Stopped else old(u.status))
                && u.armed == (if Names(Some(task.id), u) then false else old(u.armed))
    {
      ghost var pending: Option<Task> := None;
      if task.status == Running {
        task.status := Expired;
        pending := Some(task);
      }
      var stopped := StopMonitor(task.conversationId, Some(task.id), pending);
      ForgetStopped(old(tasks), tasks, task);
    }

    /** `getTasks`: the public views of the conversation's registered tasks, in order. */
    function GetTasks(conversationId: string): (r: seq<TaskView>)
      reads this, Get(tasks, conversationId)
    {
      ViewsOf(Get(tasks, conversationId))
    }

    /** A listing shows only running tasks that have not fired, at most three of them: a task
        that fired, expired or was stopped has left the registry. */
    lemma ListedTasksAreRunning(conversationId: string)
      requires Valid()
      ensures |GetTasks(conversationId)| <= MaxRunning
      ensures forall v :: v in GetTasks(conversationId) ==>
                v.status == Running && v.hits == [] && v.conversationId == conversationId
    {
      var list := Get(tasks, conversationId);
      ViewsOfPointwise(list);
      forall v | v in GetTasks(conversationId)
        ensures v.status == Running && v.hits == [] && v.conversationId == conversationId
      {
        var i :| 0 <= i < |list| && v == ToPublicTask(list[i]);
        assert list[i] in all && TaskOk(list[i], None) && Registered(list[i]);
      }
    }

    /** The tasks filed under `keys`, key by key, each list in its own order. */
    ghost function ListedUnder(keys: seq<string>): seq<Task>
      reads this
    {
      if keys == [] then [] else ListedUnder(keys[..|keys| - 1]) + Get(tasks, keys[|keys| - 1])
    }

    /** Listing one more key appends its list. */
    lemma ListedUnderStep(i: nat)
      requires i < |order|
      ensures ListedUnder(order[..i + 1]) == ListedUnder(order[..i]) + Get(tasks, order[i])
    {
      assert order[..i + 1][..i] == order[..i];
    }

    /** `getAllTasks`: the views of every registered task, conversation by conversation in the
        map's insertion order; these are exactly the running tasks, none of which has fired. */
    method GetAllTasks() returns (res: seq<TaskView>)
      requires Valid()
      ensures res == ViewsOf(ListedUnder(order))
      ensures forall v :: v in res ==> v.status == Running && v.hits == []
      ensures forall t :: t in all && t.status == Running ==> ToPublicTask(t) in res
    {
      res := CollectViews();
      var listed := ListedUnder(order);
      ViewsOfPointwise(listed);
      ListedUnderRunning(order);
      ListedUnderComplete(order);
      forall v | v in res
        ensures v.status == Running && v.hits == []
      {
        var i :| 0 <= i < |res| && res[i] == v;
        assert listed[i] in listed;
      }
      forall t | t in all && t.status == Running
        ensures ToPublicTask(t) in res
      {
        assert TaskOk(t, None) && Registered(t);
        assert t.conversationId in tasks;
        var i :| 0 <= i < |listed| && listed[i] == t;
        assert res[i] == ToPublicTask(t);
      }
    }

    /** The loops of `getAllTasks`: walks the keys in insertion order and appends the view of
        every task of each key's list. */
    method CollectViews() returns (res: seq<TaskView>)
      requires forall c :: c in order ==> c in tasks
      ensures res == ViewsOf(ListedUnder(order))
    {
      res := [];
      for i := 0 to |order|
        invariant res == ViewsOf(ListedUnder(order[..i]))
      {
        var list := tasks[order[i]];
        ListedUnderStep(i);
        ghost var done := ListedUnder(order[..i]);
        assert done + list[..0] == done;
        for j := 0 to |list|
          invariant res == ViewsOf(done + list[..j])
        {
          ViewsOfStep(done, list, j);
          res := res + [ToPublicTask(list[j])];
        }
        assert list[..|list|] == list;
      }
      assert order[..|order|] == order;
    }

    /** Everything filed under `keys` is a running task of one of those conversations that has
        not fired. */
    lemma {:induction false} ListedUnderRunning(keys: seq<string>)
      requires Valid()
      ensures forall t :: t in ListedUnder(keys) ==>
                t in all && t.status == Running && t.hits == [] && t.conversationId in keys
    {
      if keys != [] {
        var init := keys[..|keys| - 1];
        var last := keys[|keys| - 1];
        ListedUnderRunning(init);
        assert keys == init + [last];
        forall t | t in ListedUnder(keys)
          ensures t in all && t.status == Running && t.hits == [] && t.conversationId in keys
        {
          if t !in ListedUnder(init) {
            assert t in Get(tasks, last);
            assert t in all && t.conversationId == last;
            assert TaskOk(t, None) && Registered(t);
          }
        }
      }
    }

    /** Every running task of a conversation among `keys` is filed under `keys`. */
    lemma {:induction false} ListedUnderComplete(keys: seq<string>)
      requires Valid()
      ensures forall t :: t in all && t.status == Running && t.conversationId in keys ==> t in ListedUnder(keys)
    {
      if keys != [] {
        var init := keys[..|keys| - 1];
        var last := keys[|keys| - 1];
        ListedUnderComplete(init);
        forall t | t in all && t.status == Running && t.conversationId in keys
          ensures t in ListedUnder(keys)
        {
          if t.conversationId == last {
            assert TaskOk(t, None) && Registered(t);
          } else {
            assert keys == init + [last];
          }
        }
      }
    }

    /** No conversation ever has more than three running tasks. */
    lemma AtMostThreeRunning(conversationId: string)
      requires Valid()
      ensures |set t | t in all && t.conversationId == conversationId && t.status == Running| <= MaxRunning
    {
      var running := set t | t in all && t.conversationId == conversationId && t.status == Running;
      forall t | t in running ensures t in Members(conversationId) {
        assert TaskOk(t, None);
      }
      var list := Get(tasks, conversationId);
      CardinalityOfElements(list);
      assert |list| <= MaxRunning;
      SubsetCardinality(running, Members(conversationId));
    }

    /** A task fires at most once: at most one hit and at most one email about it. */
    lemma AtMostOneNotification(t: Task)
      requires Valid() && t in all
      ensures |t.hits| <= 1 && notified[t] <= 1
      ensures notified[t] == 1 <==> t.status == Triggered
    {
      if t in all {
        assert TaskOk(t, None);
      }
    }
  }

  /** After its own stop request a task is no longer registered. */
  lemma ForgetStopped(before: map<string, seq<Task>>, after: map<string, seq<Task>>, task: Task)
    requires after == RegistryAfterStop(before, task.conversationId, Some(task.id))
    ensures task !in Get(after, task.conversationId)
  {
    if IdGiven(Some(task.id)) {
      RemainingMembers(Get(before, task.conversationId), task.id);
    }
  }

  lemma SubsetCardinality<T>(a: set<T>, b: set<T>)
    requires a <= b
    ensures |a| <= |b|
  {
    assert b == a + (b - a);
  }

  lemma {:induction false} CardinalityOfElements(list: seq<Task>)
    ensures |set t | t in list| <= |list|
  {
    if list != [] {
      var init := list[..|list| - 1];
      CardinalityOfElements(init);
      assert (set t | t in list) == (set t | t in init) + {list[|list| - 1]};
    }
  }
}

=== FILE: notify.dfy ===
/** The development mail sender: an append-only, process-wide list of mock emails. */
module Notify {

  /** One recorded message; `sentAt` is the clock reading (milliseconds) taken when it was sent. */
  datatype MockEmail = MockEmail(to: string, subject: string, text: string, sentAt: int)

  /** Where JavaScript's `Array.prototype.slice(start)` begins on an array of length `len`:
      a negative start counts from the end, and both kinds are clamped to the array. */
  function SliceStart(len: nat, start: int): (k: nat)
    ensures k <= len
    ensures start >= 0 ==> k == if start <= len then start else len
    ensures start < 0 ==> k == if len + start >= 0 then len + start else 0
  {
    if start < 0 then (if len + start >= 0 then len + start else 0)
    else if start <= len then start
    else len
  }

  /** The lazily created global store. Only `SendEmailMock` changes it, and only by appending. */
  class EmailStore {
    var emails: seq<MockEmail>

    /** The first access finds no store and starts an empty one. */
    constructor ()
      ensures emails == []
    {
      emails := [];
    }

    /** Records exactly one message, keeps every earlier one, and always reports success. */
    method SendEmailMock(to: string, subject: string, text: string, now: int) returns (success: bool)
      modifies this
      ensures emails == old(emails) + [MockEmail(to, subject, text, now)]
      ensures success
    {
      emails := emails + [MockEmail(to, subject, text, now)];
      success := true;
    }

    /** `store.slice(-limit)`: the newest `limit` messages, oldest first. A zero limit (and
        `-0` is `0`) returns the whole store; a negative limit drops the oldest `-limit`. */
    function ListMockEmails(limit: int := 50): (r: seq<MockEmail>)
      reads this
      ensures |r| <= |emails| && r == emails[|emails| - |r|..]
      ensures limit > 0 ==> |r| == if limit <= |emails| then limit else |emails|
      ensures limit == 0 ==> r == emails
      ensures limit < 0 ==> |r| == if -limit <= |emails| then |emails| + limit else 0
    {
      emails[SliceStart(|emails|, -limit)..]
    }
  }

  /** Sending never loses a listed message: after a send, the newest entry is the one just sent,
      and whatever an earlier listing showed is still in the store, in the same order. */
  lemma ListingAfterSend(before: seq<MockEmail>, e: MockEmail, limit: int)
    requires limit > 0
    ensures var after := before + [e];
      var r := after[SliceStart(|after|, -limit)..];
      |r| >= 1 && r[|r| - 1] == e && r[..|r| - 1] == before[|before| - (|r| - 1)..]
  {
    var after := before + [e];
    var k := SliceStart(|after|, -limit);
    assert after[k..][..|after| - k - 1] == before[k..];
  }
}

=== FILE: text.dfy ===
/** The JavaScript string operations the core relies on: `trim`, `slice(0, n)`,
    `toUpperCase`/`toLowerCase` (ASCII letters only) and `split` on one character. */
module Text {

  /** The code points `String.prototype.trim` removes: ECMAScript WhiteSpace and LineTerminator. */
  const WhitespaceChars: set<char> := {
    '\t', '\n', '\U{B}', '\U{C}', '\r', ' ', '\U{A0}', '\U{1680}',
    '\U{2000}', '\U{2001}', '\U{2002}', '\U{2003}', '\U{2004}', '\U{2005}', '\U{2006}',
    '\U{2007}', '\U{2008}', '\U{2009}', '\U{200A}',
    '\U{2028}', '\U{2029}', '\U{202F}', '\U{205F}', '\U{3000}', '\U{FEFF}'
  }

  predicate IsWhitespace(c: char) {
    c in WhitespaceChars
  }

  /** Every character of `s` is whitespace (vacuously true of ""). */
  predicate Blank(s: string) {
    forall i :: 0 <= i < |s| ==> IsWhitespace(s[i])
  }

  /** JavaScript truthiness of a string: only "" is falsy. */
  predicate Truthy(s: string) {
    s != ""
  }

  /** How many whitespace characters `s` starts with. */
  function LeadingWhitespace(s: string): (k: nat)
    ensures k <= |s|
    ensures forall i :: 0 <= i < k ==> IsWhitespace(s[i])
    ensures k < |s| ==> !IsWhitespace(s[k])
    decreases |s|
  {
    if s != [] && IsWhitespace(s[0]) then 1 + LeadingWhitespace(s[1..]) else 0
  }

  /** How many whitespace characters `s` ends with. */
  function TrailingWhitespace(s: string): (k: nat)
    ensures k <= |s|
    ensures forall i :: |s| - k <= i < |s| ==> IsWhitespace(s[i])
    ensures k < |s| ==> !IsWhitespace(s[|s| - 1 - k])
    decreases |s|
  {
    if s != [] && IsWhitespace(s[|s| - 1]) then 1 + TrailingWhitespace(s[..|s| - 1]) else 0
  }

  /** `s.trim()`: the slice of `s` left after removing its leading and trailing whitespace. It
      starts and ends with non-whitespace, everything around it is whitespace, and it is empty
      exactly when `s` is blank. */
  function Trim(s: string): (r: string)
    ensures LeadingWhitespace(s) + |r| <= |s|
    ensures r == s[LeadingWhitespace(s)..LeadingWhitespace(s) + |r|]
    ensures forall i :: 0 <= i < |s| && !(LeadingWhitespace(s) <= i < LeadingWhitespace(s) + |r|) ==>
              IsWhitespace(s[i])
    ensures r == [] || (!IsWhitespace(r[0]) && !IsWhitespace(r[|r| - 1]))
    ensures r == [] <==> Blank(s)
  {
    var a := LeadingWhitespace(s);
    if a == |s| then [] else s[a..|s| - TrailingWhitespace(s)]
  }

  /** A string that starts and ends with non-whitespace is its own trim. */
  lemma TrimOfTrimmed(s: string)
    requires s == [] || (!IsWhitespace(s[0]) && !IsWhitespace(s[|s| - 1]))
    ensures Trim(s) == s
  {
    if s != [] {
      assert LeadingWhitespace(s) == 0;
      assert TrailingWhitespace(s) == 0;
    }
  }

  /** Trimming twice trims nothing more. */
  lemma TrimIdempotent(s: string)
    ensures Trim(Trim(s)) == Trim(s)
  {
    TrimOfTrimmed(Trim(s));
  }

  /** `s.slice(0, n)` for a non-negative `n`. */
  function Take(s: string, n: nat): (r: string)
    ensures |r| == if |s| <= n then |s| else n
    ensures r == s[..|r|]
  {
    if |s| <= n then s else s[..n]
  }

  function UpperChar(c: char): (d: char)
    ensures 'a' <= c <= 'z' ==> 'A' <= d <= 'Z' && d as int == c as int - 32
    ensures !('a' <= c <= 'z') ==> d == c
  {
    if 'a' <= c <= 'z' then (c as int - 32) as char else c
  }

  function LowerChar(c: char): (d: char)
    ensures 'A' <= c <= 'Z' ==> 'a' <= d <= 'z' && d as int == c as int + 32
    ensures !('A' <= c <= 'Z') ==> d == c
  {
    if 'A' <= c <= 'Z' then (c as int + 32) as char else c
  }

  /** `s.toUpperCase()` restricted to ASCII letters. */
  function Upper(s: string): (r: string)
    ensures |r| == |s| && forall i :: 0 <= i < |s| ==> r[i] == UpperChar(s[i])
  {
    seq(|s|, i requires 0 <= i < |s| => UpperChar(s[i]))
  }

  /** `s.toLowerCase()` restricted to ASCII letters. */
  function Lower(s: string): (r: string)
    ensures |r| == |s| && forall i :: 0 <= i < |s| ==> r[i] == LowerChar(s[i])
  {
    seq(|s|, i requires 0 <= i < |s| => LowerChar(s[i]))
  }

  predicate HasNoLowerAscii(s: string) {
    forall i :: 0 <= i < |s| ==> !('a' <= s[i] <= 'z')
  }

  lemma UpperIsUpper(s: string)
    ensures HasNoLowerAscii(Upper(s))
    ensures Upper(Upper(s)) == Upper(s)
  {
  }

  /** Index of the first occurrence of `sep` in `s`. */
  function IndexOf(s: string, sep: char): (k: nat)
    requires sep in s
    ensures k < |s| && s[k] == sep && sep !in s[..k]
  {
    if s[0] == sep then 0 else 1 + IndexOf(s[1..], sep)
  }

  /** The inverse of `Split`: the pieces glued back together with `sep` between them. */
  function Join(pieces: seq<string>, sep: char): string
    requires |pieces| >= 1
  {
    if |pieces| == 1 then pieces[0] else pieces[0] + [sep] + Join(pieces[1..], sep)
  }

  /** `s.split(sep)` for a one-character separator: always at least one piece, possibly empty ones. */
  function Split(s: string, sep: char): (r: seq<string>)
    ensures |r| >= 1
    ensures forall i :: 0 <= i < |r| ==> sep !in r[i]
    ensures Join(r, sep) == s
    decreases |s|
  {
    if sep in s then
      var k := IndexOf(s, sep);
      assert s == s[..k] + [sep] + s[k + 1..];
      [s[..k]] + Split(s[k + 1..], sep)
    else
      [s]
  }
}

=== FILE: wrappers.dfy ===
/** Optional values and results: JavaScript's `undefined`/`null` and the `{success, error}`
    shapes of the source become these. */
module Wrappers {

  datatype Option<+T> = None | Some(value: T) {
    function GetOr(default: T): T {
      match this
      case Some(v) => v
      case None => default
    }
  }

  datatype Result<+R, +E> = Success(value: R) | Failure(error: E)
}
